=== FILE: README.md ===
# tienda-ropa core in Dafny

A model of the shop's core logic. It follows the shopper from the cart to the voucher:

- the cart (`carrito-service.ts`);
- the checkout form and the voucher built from the sent order (`checkout-component.ts`);
- the browser-side session store (`auth.ts`);
- the login, registration and token gates of the API (`backend/auth.js`);
- the shim in `backend/db.js`, which turns MySQL-style statements into table operations.

The modules follow the program:

| module | file | models |
|---|---|---|
| `Wrappers` | wrappers.dfy | `Option` and `Result` |
| `Text` | text.dfy | the string operations the code relies on: `trim`, ASCII `toUpperCase`, `startsWith`, `includes`, `split`, `parseInt`, number printing |
| `Values` | values.dfy | JavaScript values, truthiness, `a \|\| b` (`Or`), and `String(v)` (`Display`) |
| `Cart` | cart.dfy | the cart service |
| `Db` | db.dfy | `db.query` |
| `AuthApi` | auth_api.dfy | the `login`, `register`, `verifyToken` and `verifyAdmin` handlers, over the lookup answers they receive |
| `AuthStore` | auth_store.dfy | the same handlers with their lookups sent through the shim to a store of tables |
| `Session` | session.dfy | the `AuthService` of the front end over a `localStorage` map |
| `Checkout` | checkout.dfy | `onSubmitPago` and the voucher |

Some conventions hold throughout:

- Money is an integer number of cents.
- A statement given to the shim is its raw text plus the captures of the shim's regular expressions (`FROM`, `WHERE`, `ORDER BY`, `INSERT INTO`, `SET`, `UPDATE`, `DELETE FROM`). The substring tests (`includes`), upper-casing and trimming are modelled character by character.
- Token signing, verification and decoding are parameters.
- An HTTP exchange is modelled by its outcome: an answer or a failure.

The shim answers a SELECT with a read that applies at most two filters:

- the first `col = ?` condition, bound to the first parameter;
- `activo = true`, when the text contains `activo = TRUE`.

Every other condition is dropped. Composing the handlers of `auth.js` with the shim therefore shows three defects, listed under Findings:

- The DNI conflict is never reported.
- A non-registered row can shadow a registered user at login.
- The registration INSERT names eight columns but passes seven values, so `tipo` is bound to `undefined` (`AuthStore.InsertUserPlan`). The object reaches the store as JSON, which drops undefined keys, so the column takes its default. Unless that default is `registrado`, the lookup for registered users never finds a user who registered through the app (`AuthStore.AsWrittenRegistrationLockedOut`). With that default it does (`AuthStore.RegistradoDefaultAdmits`).

The correction that filters on `tipo` must therefore go together with binding the `'registrado'` literal.

A further effect of the positional binding is stated as a lemma: `UPDATE … SET activo = FALSE WHERE id = ?` takes the UPDATE branch and binds `activo` to the first parameter (`Db.SetActivoFalseTakesUpdateBranch`).

Three facts about the checkout page shape its model:

- **Validation order.** The page checks name, address and phone first, then the Yape operation number, then the cart. It checks no quantities or prices: it trusts the cart.
- **The total.** The page itself computes the order total, as `totalPrice()` of the cart. The model proves that this equals the sum of the line subtotals.
- **The customer record.** The page sends name, email (from `localStorage`), phone and address, and no tax id or user id.

## Model

| member | source | states |
|---|---|---|
| Values.Or | frontend/src/app/pages/checkout-component/checkout-component.ts:133 | `a \|\| b` is truthy exactly when either operand is, and it is always one of its operands: the first when that one is truthy, the second otherwise |
| Values.TruthyDisplaysNonEmpty | frontend/src/app/pages/checkout-component/checkout-component.ts:133 | a truthy value never prints as the empty string, so a `\|\|` fallback message is never blank |
| Cart.FindIndex | frontend/src/app/services/carrito-service.ts:46 | `find` by id returns the first line with that id, and nothing exactly when no line has it |
| Cart.AddItem | frontend/src/app/services/carrito-service.ts:44-66 | after adding, the cart holds a line with the product's id |
| Cart.AddExistingMerges | frontend/src/app/services/carrito-service.ts:46-50 | adding a product already in the cart raises that line's quantity by the amount added and leaves every other line and the length unchanged |
| Cart.AddNewAppends | frontend/src/app/services/carrito-service.ts:52-61 | adding a product not in the cart appends one new line with the product's data and the amount |
| Cart.AddOneNewHasQuantityOne | frontend/src/app/services/carrito-service.ts:44 | the default amount is one: a new product enters the cart with quantity 1 |
| Cart.AddKeepsUniqueIds | frontend/src/app/services/carrito-service.ts:44-66 | adding keeps at most one line per product id |
| Cart.AddRaisesTotalItems | frontend/src/app/services/carrito-service.ts:25-27 | adding `n` raises the item count by exactly `n` |
| Cart.AddRaisesTotalPrice | frontend/src/app/services/carrito-service.ts:29-31 | adding raises the total by the amount times the unit price of the line it lands on: the stored line's price when merged, the product's price when new |
| Cart.TotalsAppend | frontend/src/app/services/carrito-service.ts:25-31 | both totals are additive over concatenation of carts |
| Cart.TotalsUpdateAt | frontend/src/app/services/carrito-service.ts:25-31 | replacing one line changes each total by the difference between the new and the old line |
| Cart.RemoveItem | frontend/src/app/services/carrito-service.ts:86-91 | removing never lengthens the cart |
| Cart.RemoveItemContents | frontend/src/app/services/carrito-service.ts:86-91 | after removing an id, no line has it, and a line survives exactly when it was in the cart with another id |
| Cart.RemoveItemAppend | frontend/src/app/services/carrito-service.ts:86-91 | removing distributes over concatenation |
| Cart.RemoveAbsentIsIdentity | frontend/src/app/services/carrito-service.ts:86-91 | removing an id no line has leaves the cart as it was |
| Cart.RemoveUniqueCutsOut | frontend/src/app/services/carrito-service.ts:86-91 | with unique ids, removing the id of line `k` cuts out exactly that line and keeps the others in order |
| Cart.RemoveKeepsUniqueIds | frontend/src/app/services/carrito-service.ts:86-91 | removing keeps ids unique |
| Cart.RemoveLowersTotalItems | frontend/src/app/services/carrito-service.ts:25-31 | removing line `k` lowers the item count by its quantity and the total by its subtotal |
| Cart.UpdateNonPositiveIsRemove | frontend/src/app/services/carrito-service.ts:69-76 | setting a quantity of zero or less is the same as removing the product |
| Cart.UpdateUnknownIsNoOp | frontend/src/app/services/carrito-service.ts:69-83 | updating an id not in the cart changes nothing |
| Cart.UpdatePositiveSetsQuantity | frontend/src/app/services/carrito-service.ts:71-80 | a positive quantity replaces that line's quantity and leaves every other line unchanged |
| Cart.UpdateKeepsUniqueIds | frontend/src/app/services/carrito-service.ts:69-83 | updating keeps ids unique |
| Cart.UpdateQuantity | frontend/src/app/services/carrito-service.ts:69-83 | updating never lengthens the cart, keeps its length for a positive quantity, and changes nothing for an id no line has (the contents: UpdatePositiveSetsQuantity, UpdateNonPositiveIsRemove) |
| Cart.Clear | frontend/src/app/services/carrito-service.ts:94-97 | the cleared cart holds no product, and both totals are zero |
| Cart.TotalItems | frontend/src/app/services/carrito-service.ts:25-27 | with positive quantities the item count is at least the number of lines (its relation to the cart operations: TotalsAppend, TotalsUpdateAt) |
| Cart.TotalPrice | frontend/src/app/services/carrito-service.ts:29-31 | with non-negative prices and quantities the total is non-negative (it equals the voucher's subtotals: Checkout.SubtotalsAddUp) |
| Cart.ClearZeroesTotals | frontend/src/app/services/carrito-service.ts:94-97 | after clearing, the cart is empty and both totals are zero |
| Db.BindColumns | backend/db.js:75-82 | the bound row has exactly the named columns as keys |
| Db.BindColumnsPositional | backend/db.js:78-82 | with distinct names, the `i`-th column is bound to the `i`-th parameter, or to `undefined` past the end |
| Db.ColumnNamesOfCommaList | backend/db.js:75-77 | splitting a comma list of trimmed names on commas and trimming gives the names back |
| Db.SetColumns | backend/db.js:108-113 | the SET clause yields one column name per comma-separated piece |
| Db.SetColumnsOfAssignments | backend/db.js:108-113 | a SET list `c1 = e1, …, cn = en` of trimmed names and expressions reads back exactly the names `c1 … cn`, in order |
| Db.ActivoFalseColumns | backend/db.js:108-113 | the SET clause `activo = FALSE` yields the single column `activo` |
| Db.OpensWithUpdate | backend/db.js:33-100 | a statement whose text opens with `UPDATE` takes the UPDATE branch |
| Db.RunRead | backend/db.js:41-52 | a read returns exactly the rows that pass every filter |
| Db.Persisted | backend/db.js:84 | an inserted object is stored with every defined value; an undefined value is not sent, so its column reads as the table's default when there is one and as absent otherwise; no undefined value is stored |
| Db.RunUpdate | backend/db.js:116-120 | an update keeps the number of rows |
| Db.CharSurvivesNormalise | backend/db.js:33 | every non-space character of the statement survives upper-casing and trimming |
| Db.NormalisedStartsWith | backend/db.js:33-36 | a statement whose first non-space characters spell a keyword in any case is dispatched on that keyword |
| Db.DispatchWordsExclusive | backend/db.js:36-160 | the dispatch keywords start with different letters, so at most one branch can apply |
| Db.KindOfWord | backend/db.js:36-154 | each statement keyword selects its own branch |
| Db.UnsupportedIff | backend/db.js:162-164 | the shim rejects a statement as unsupported exactly when it starts with none of the keywords, and the message carries the first twenty characters |
| Db.UnknownKindIff | backend/db.js:36-164 | a statement is unknown exactly when its normalised text starts with no keyword and is no transaction word |
| Db.UnsupportedPrefix | backend/db.js:163 | the quoted prefix has at most twenty characters and is a prefix of the statement |
| Db.TransactionWordsAcknowledged | backend/db.js:157-160 | a statement that is exactly BEGIN, COMMIT or ROLLBACK (after upper-casing and trimming) is acknowledged without touching the store |
| Db.TransactionWordNotStatement | backend/db.js:157-160 | a transaction word starts with no statement keyword |
| Db.TransactionIsNoOp | backend/db.js:157-160 | a transaction word settles to `undefined` and hands the callback no error and the acknowledgement message, whatever the store would answer |
| Db.SelectIgnoresLaterParams | backend/db.js:44-47 | a SELECT binds only its first parameter: the later ones do not change the plan |
| Db.SelectRowsMatchFirstCondition | backend/db.js:36-66 | a SELECT reads its FROM table, and a row is returned exactly when it passes the first `col = ?` condition (if any) and `activo = true` (when the text asks for it) |
| Db.SelectWithoutTable | backend/db.js:37-38 | a SELECT without a FROM table is an error |
| Db.SelectOrdering | backend/db.js:54-60 | a SELECT is ordered exactly when it says ORDER BY and the clause parses, on that column, descending only for DESC |
| Db.InsertBindsColumns | backend/db.js:70-84 | an INSERT targets its table with a row whose keys are the listed columns, each bound to the parameter in its position |
| Db.InsertIncomplete | backend/db.js:71-76 | an INSERT without a table or without a column list is an error |
| Db.InsertResultShape | backend/db.js:84-94 | an INSERT returns the inserted rows and hands the callback the first row's id and a row count |
| Db.UpdateBinding | backend/db.js:98-120 | an UPDATE binds the SET columns positionally and filters on its WHERE column with the last parameter |
| Db.UpdateIncompleteRejected | backend/db.js:103-106 | an UPDATE without a SET or a WHERE clause is an error |
| Db.DeleteIsSoftUpdate | backend/db.js:134-144 | a DELETE is an error when incomplete and otherwise sets `activo = false` on the rows whose WHERE column equals the first parameter |
| Db.SoftDeleteKeepsRows | backend/db.js:140-144 | a soft delete keeps every row, deactivates the matching ones, and changes no other column |
| Db.SetActivoFalseTakesUpdateBranch | backend/db.js:98-134 | a statement opening with `UPDATE` whose SET clause is `activo = FALSE` is planned as an UPDATE of its table that binds `activo` to the first parameter and filters its WHERE column on the last, not as the soft delete its text also matches |
| Db.PlanQuery | backend/db.js:33-164 | reads come only from SELECT and inserts only from INSERT; an update is a soft delete exactly in the DELETE branch; the acknowledgement comes exactly from a transaction word and the unsupported error exactly from a statement no branch takes |
| Db.CallbackInPlaceOfParams | backend/db.js:26-29 | calling with a callback in place of the parameters behaves as empty parameters and that callback |
| Db.Query | backend/db.js:24-170 | the callback is called exactly when one was given, and it receives an error exactly when the call throws, the error thrown |
| Db.ErrorsReportedAndRethrown | backend/db.js:31-170 | for a callback that returns, the call throws exactly when planning fails or the store reports an error; a callback is called exactly when one was given, with the error when the call throws and with a result otherwise |
| Db.CompleteReports | backend/db.js:62-66 | for a callback that returns, a planned operation throws exactly on a store error, and the callback receives the error or the result |
| Db.CallbackThrowsReported | backend/db.js:31-169 | a callback that throws on a result is called a second time with what it threw, and the call rethrows that; one that throws on an error is called once and its exception replaces the error; a callback that returns leaves the outcome as the store decided it |
| AuthApi.Login | backend/auth.js:8-62 | login queries nothing exactly when the email or the password is missing, grants a session only when a lookup's first row has the given password, and signs the answer's role into the token (all outcomes: LoginStatuses) |
| AuthApi.LoginValidation | backend/auth.js:11-18 | login answers 400 exactly when the email or the password is missing, without any query; otherwise it first queries the administrators by email |
| AuthApi.LoginAsAdmin | backend/auth.js:18-35 | login grants an admin session exactly when the administrator lookup finds a first row whose password equals the one given |
| AuthApi.LoginAsClient | backend/auth.js:37-56 | login grants a client session exactly when no administrator matched and the user lookup's first row has the given password |
| AuthApi.LoginUnauthorized | backend/auth.js:59 | login answers 401 exactly when both lookups succeed and neither first row has the password |
| AuthApi.LoginServerError | backend/auth.js:20-45 | a failed lookup answers 500 |
| AuthApi.LoginStatuses | backend/auth.js:8-62 | login answers one of 200, 400, 401 or 500, and carries a session exactly with 200 |
| AuthApi.Register | backend/auth.js:65-110 | register grants a session only after sending the INSERT with the form's values, as `cliente` under the form's email; a 409 follows a non-empty conflict lookup and inserts nothing |
| AuthApi.RegisterValidation | backend/auth.js:68-73 | register answers 400 exactly when a required field is missing, without any query; otherwise it first runs the conflict lookup |
| AuthApi.RegisterEmailConflictFirst | backend/auth.js:78-84 | a conflicting email is reported before a conflicting DNI |
| AuthApi.RegisterInsertsOnlyWithoutConflict | backend/auth.js:78-93 | register inserts exactly when the fields are present and no row the conflict lookup returns has the email or the DNI |
| AuthApi.RegisterSuccess | backend/auth.js:93-107 | after an insert, register answers 201 with a client session on success and 500 on failure |
| AuthApi.InsertValuesShape | backend/auth.js:91 | the insert sends seven values: the optional ones become null when falsy and none is undefined |
| AuthApi.BearerToken | backend/auth.js:114-119 | a token is found only in a header containing a space, and it is non-empty and contains no space (which word: BearerTokenIsSecondWord) |
| AuthApi.VerifyToken | backend/auth.js:113-129 | the gate passes on exactly the claims the verifier returns for the header's token, and denies with 401 without a token and 403 otherwise |
| AuthApi.VerifyAdmin | backend/auth.js:132-142 | the admin gate passes only what the token gate passes, and only with role `admin`; it denies with 401 or 403 |
| AuthApi.BearerTokenOfHeader | backend/auth.js:114-115 | the token is the second space-separated word of the header |
| AuthApi.BearerHeader | backend/auth.js:114-115 | `Bearer <token>` yields the token |
| AuthApi.BearerTokenAbsent | backend/auth.js:114-119 | a missing header, or one without a space, yields no token |
| AuthApi.BearerTokenIsSecondWord | backend/auth.js:114-115 | any token found is the non-empty second word of the header |
| AuthApi.VerifyTokenOutcomes | backend/auth.js:113-129 | the token gate answers 401 exactly without a token, 403 exactly when verification fails, and passes the verified claims on otherwise |
| AuthApi.VerifyAdminOutcomes | backend/auth.js:132-142 | the admin gate passes exactly when the token gate passes with role `admin`, and answers 403 for any other role |
| AuthApi.AdminLoginPassesAdminGate | backend/auth.js:30-33 | the token an admin login signs passes the admin gate |
| AuthApi.ClientTokenStopsAtAdminGate | backend/auth.js:121-142 | a client token passes the token gate and is refused with 403 at the admin gate |
| AuthApi.ClientSessionsCarryClientRole | backend/auth.js:47-54 | the sessions that user login and registration grant carry role `cliente` |
| AuthStore.LookupViaRead | backend/db.js:62-66 | a planned read reaches the handler's callback as the matching rows of its table, or as an error for an unknown table |
| AuthStore.AdminLookupPlan | backend/auth.js:18 | through the shim, the administrator lookup reads `administradores` by email |
| AuthStore.UserLookupPlan | backend/auth.js:38 | through the shim, the user lookup reads `usuarios` by email only |
| AuthStore.ConflictLookupPlan | backend/auth.js:73 | through the shim, the conflict lookup reads `usuarios` by email only |
| AuthStore.InsertColumnNamesRead | backend/auth.js:88 | the shim reads the eight column names of the registration INSERT |
| AuthStore.InsertUserTextIsInsert | backend/auth.js:87-88 | the registration statement is dispatched as an INSERT |
| AuthStore.InsertUserPlanShape | backend/auth.js:87-91 | the registration INSERT targets `usuarios` with its columns bound positionally |
| AuthStore.InsertRowBinding | backend/auth.js:87-91 | with seven values the row binds the seven columns in order and binds `tipo` to undefined |
| AuthStore.InsertUserPlan | backend/auth.js:87-91 | the row the INSERT sends has the form's values, null for falsy optional ones, and `tipo` bound to undefined rather than `registrado` |
| AuthStore.LoginOnReadsByEmail | backend/auth.js:18-56 | on a store, login decides on the by-email reads of both tables |
| AuthStore.RegisterOnReadsByEmail | backend/auth.js:73-93 | on a store, register decides on the by-email read of `usuarios` |
| AuthStore.ReadByEmailMatches | backend/db.js:44-47 | every row a by-email read returns has that email |
| AuthStore.EmailRowsNeverDniConflict | backend/auth.js:79-84 | when every conflict row has the email, the DNI conflict is never the answer |
| AuthStore.DniConflictNeverReported | backend/auth.js:83 | as written, register never answers that the DNI is taken |
| AuthStore.ReadByEmailEmpty | backend/db.js:44-47 | a by-email read where no row has the email returns nothing |
| AuthStore.NoConflictInserts | backend/auth.js:78-93 | with no conflict row, register inserts |
| AuthStore.DuplicateDniInserted | backend/auth.js:73-91 | as written, a DNI already on file under another email is inserted again |
| AuthStore.MatchEither | backend/auth.js:73 | the intended conflict lookup returns exactly the rows with the email or the DNI, where a null or absent value matches no row, as with SQL's `=` |
| AuthStore.IntendedRegisterNoDuplicates | backend/auth.js:73-91 | with the intended lookup, a user is inserted only when no stored user has the email, nor the DNI when one is given |
| AuthStore.IntendedReportsDniConflict | backend/auth.js:83 | with the intended lookup, a DNI given and held under another email is reported as taken |
| AuthStore.IntendedAbsentDniNoConflict | backend/auth.js:73-84 | with the intended lookup, a registration without a DNI is never refused for its DNI |
| AuthStore.ShadowedRegistrationRefused | backend/auth.js:38-59 | as written, a non-registered row with the same email stored first makes a registered user's login fail with 401 |
| AuthStore.IntendedLoginOnlyRegistered | backend/auth.js:37-56 | with the intended lookup, a client session always comes from a registered user's row with that email and password |
| AuthStore.ShadowedRegistrationAdmitted | backend/auth.js:37-56 | with the intended lookup, the shadowed registered user logs in as client with their own id |
| AuthStore.NoAdminFound | backend/auth.js:18-35 | with no administrator under the email, the administrator lookup finds no row |
| AuthStore.OnlyRegisteredFound | backend/auth.js:38 | in the shadowing store the intended user lookup finds only the registered row |
| AuthStore.StoredUser | backend/db.js:78-84 | the stored user row carries the id the store assigns and the bound value of every other column; `tipo` holds its column default when its bound value is undefined |
| AuthStore.AsWrittenRowFields | backend/auth.js:86-91 | the row the registration INSERT stores holds the form's email and password, and `tipo` at its column default, because the undefined value is never sent |
| AuthStore.AsWrittenRegistrationLockedOut | backend/auth.js:37-91 | unless `tipo` defaults to `registrado`, a user registered as written logs in as client under the email-only lookup, but the intended lookup, which asks for `tipo = "registrado"`, refuses the same credentials with 401 |
| AuthStore.RegistradoDefaultAdmits | backend/auth.js:37-91 | if `tipo` defaults to `registrado`, the intended lookup admits a user registered as written, as client with the assigned id |
| AuthStore.InsertValuesIntended | backend/auth.js:88-91 | the intended INSERT values are the seven sent, then the `'registrado'` literal, one per listed column |
| AuthStore.IntendedInsertRowTyped | backend/auth.js:86-91 | with the literal bound, the stored row is a registered user with the form's name, email and password |
| AuthStore.IntendedRegistrationLogsIn | backend/auth.js:37-91 | with the literal bound, a user just registered logs in under the intended lookup with the same email and password, as client, with the id the store assigned and the form's name, whatever `tipo`'s default |
| Session.Construct | frontend/src/app/services/auth.ts:29-36 | the constructor keeps the storage; a restored session shows the stored name, and an unrestored one shows nothing because no name is stored |
| Session.Login | frontend/src/app/services/auth.ts:45-70 | a login that yields an answer leaves the session authenticated with a non-empty stored token and showing the name read back; one that yields nothing leaves the storage as it was |
| Session.Register | frontend/src/app/services/auth.ts:116-139 | a registration that yields an answer leaves the session authenticated with a non-empty stored token and the form's DNI and phone stored; one that yields nothing changes nothing |
| Session.Logout | frontend/src/app/services/auth.ts:167-174 | after logout the user is not logged in, not admin and has no token, and every key outside the three removed keeps its value |
| Session.GetUserId | frontend/src/app/services/auth.ts:89-92 | an id stored as the decimal text of an integer reads back as that integer, and nothing stored reads back as none |
| Session.ConstructRestores | frontend/src/app/services/auth.ts:29-36 | on start the session is authenticated exactly when a non-empty name is stored; being logged in means a stored name or token |
| Session.LoginStores | frontend/src/app/services/auth.ts:45-63 | a login answer with a token stores exactly the six login keys, with the answer's values and their fallbacks, and leaves every other key alone |
| Session.LoginWithoutToken | frontend/src/app/services/auth.ts:64 | a login answer without a token changes nothing and yields null |
| Session.LoginFailureClearsFlag | frontend/src/app/services/auth.ts:66-70 | a failed login drops the authenticated flag and keeps the storage |
| Session.LoginThenQueries | frontend/src/app/services/auth.ts:146-177 | after a login the user is logged in (`Session.IsLoggedIn`), is admin exactly when the role is `admin` (`Session.IsAdmin`), and the token (`Session.GetToken`) and shown name (`Session.GetNombreUsuario`) read back |
| Session.LoginUserIdRoundTrip | frontend/src/app/services/auth.ts:89-92 | the user id decoded from the token reads back as that number, and a missing id reads back as none |
| Session.UserIdReadsBack | frontend/src/app/services/auth.ts:89-92 | a stored integer id parses back to itself |
| Session.LoginSurvivesReload | frontend/src/app/services/auth.ts:29-36 | a reload after a login restores the authenticated state and the shown name |
| Session.RegisterStores | frontend/src/app/services/auth.ts:116-133 | a registration answer with a token stores the registration keys, falls back to the form's name, keeps the form's DNI and phone, and leaves other keys alone |
| Session.RegisterFailureKeepsState | frontend/src/app/services/auth.ts:136-139 | a failed registration changes nothing |
| Session.LogoutRemovesOnlyItsKeys | frontend/src/app/services/auth.ts:167-174 | logout removes exactly its keys and keeps every other stored value |
| Session.LogoutQueries | frontend/src/app/services/auth.ts:167-174 | after logout the user is not logged in (`Session.IsLoggedIn`), not admin (`Session.IsAdmin`), has no token (`Session.GetToken`) and the default name (`Session.GetNombreUsuario`), yet the user id and email remain |
| Session.LogoutIdempotent | frontend/src/app/services/auth.ts:167-174 | logging out twice is the same as logging out once |
| Session.UserIdOutlivesLogout | frontend/src/app/services/auth.ts:89-92 | the user id read after a login is still read after logout |
| Checkout.Initial | frontend/src/app/pages/checkout-component/checkout-component.ts:17-29 | a fresh page cannot be submitted: its empty form fails the first check; it starts with Yape selected, the given cart, no result and not processing |
| Checkout.InitialPageFilledIn | frontend/src/app/pages/checkout-component/checkout-component.ts:92-106 | once name, address, phone and operation number are filled in, a fresh page sends an order exactly when the cart is non-empty |
| Checkout.Problem | frontend/src/app/pages/checkout-component/checkout-component.ts:92-106 | the check reports one of the three messages, always fails on an empty cart, and passes only with name, address and phone present (exactly when: ProblemNoneIff) |
| Checkout.FieldsCheckedFirst | frontend/src/app/pages/checkout-component/checkout-component.ts:92-95 | a missing name, address or phone is reported first |
| Checkout.OperationCheckedSecond | frontend/src/app/pages/checkout-component/checkout-component.ts:97-100 | with the fields present, Yape without an operation number is reported next |
| Checkout.CartCheckedLast | frontend/src/app/pages/checkout-component/checkout-component.ts:102-106 | with the form complete, only an empty cart is reported |
| Checkout.ProblemNoneIff | frontend/src/app/pages/checkout-component/checkout-component.ts:92-106 | the order is sent exactly when the three fields are non-empty, Yape has an operation number, and the cart is non-empty |
| Checkout.OperationIrrelevantOtherwise | frontend/src/app/pages/checkout-component/checkout-component.ts:97 | for methods other than Yape the operation number does not affect validation |
| Checkout.Submit | frontend/src/app/pages/checkout-component/checkout-component.ts:90-129 | submitting never changes the cart or the form |
| Checkout.SubmitRejected | frontend/src/app/pages/checkout-component/checkout-component.ts:92-106 | an invalid submission sends nothing and only sets the error message |
| Checkout.SubmitSends | frontend/src/app/pages/checkout-component/checkout-component.ts:108-129 | a valid submission sends the order built from the form and cart, marks processing and clears the error |
| Checkout.BuildOrder | frontend/src/app/pages/checkout-component/checkout-component.ts:108-126 | the order has one line per cart line and carries an email only when a non-empty one is stored (the values: OrderReflectsForm) |
| Checkout.Lines | frontend/src/app/pages/checkout-component/checkout-component.ts:116-121 | the order has one line per cart line |
| Checkout.LinesCorrespond | frontend/src/app/pages/checkout-component/checkout-component.ts:116-121 | each order line carries its cart line's id, quantity and price, and its name or `Producto` |
| Checkout.LinesNamed | frontend/src/app/pages/checkout-component/checkout-component.ts:118 | no order line has an empty name |
| Checkout.SubtotalsAddUp | frontend/src/app/pages/checkout-component/checkout-component.ts:122 | the cart's total equals the sum of the voucher subtotals of its lines |
| Checkout.OrderReflectsForm | frontend/src/app/pages/checkout-component/checkout-component.ts:108-126 | the order carries the form's data, the stored email only when non-empty, and a total equal to the sum of its subtotals |
| Checkout.OnSuccess | frontend/src/app/pages/checkout-component/checkout-component.ts:132-141 | on success the cart is empty, the form is kept, processing stops, and the voucher shows the sent order's rows and total |
| Checkout.OnError | frontend/src/app/pages/checkout-component/checkout-component.ts:142-146 | on failure the cart, the snapshot and the answer are kept and processing stops |
| Checkout.SuccessClearsCart | frontend/src/app/pages/checkout-component/checkout-component.ts:132-141 | a success clears the cart, keeps the sent order and the reply, stops processing, and shows the reply's message or the default, never empty |
| Checkout.ErrorKeepsCart | frontend/src/app/pages/checkout-component/checkout-component.ts:142-146 | a failure keeps the cart, stops processing and shows the server's message or the default, never empty |
| Checkout.VoucherOfSuccessfulCheckout | frontend/src/app/pages/checkout-component/checkout-component.ts:159-230 | after a successful checkout the voucher lists the purchased lines and its total equals the former cart's total, though the cart is empty |
| Checkout.RowsOf | frontend/src/app/pages/checkout-component/checkout-component.ts:159-166 | the voucher has one row per order line |
| Checkout.RowsCorrespond | frontend/src/app/pages/checkout-component/checkout-component.ts:159-166 | each voucher row shows its line's name or `Producto`, its quantity, price and subtotal |
| Checkout.VoucherCode | frontend/src/app/pages/checkout-component/checkout-component.ts:204 | the voucher code is non-empty only when the answer has a tracking code or an order id, and empty without an answer |
| Checkout.VoucherCodeFallback | frontend/src/app/pages/checkout-component/checkout-component.ts:204 | the voucher code is the tracking code, else the order id, else empty |
| Checkout.DownloadNameFallback | frontend/src/app/pages/checkout-component/checkout-component.ts:255 | the download code (`Checkout.DownloadCode`) is the voucher code when there is one and `pedido` otherwise, never empty |
| Checkout.DownloadNamesAgree | frontend/src/app/pages/checkout-component/checkout-component.ts:285-300 | the PDF and HTML file names (`Checkout.PdfName`, `Checkout.HtmlName`) share their stem and end in `.pdf` and `.html` |

## Left out

- Supabase, the network, the connection test and the MySQL pool (`backend/config/db.js`): the store is a map of tables, and the reference `RunRead`/`RunUpdate` stand in for Supabase's filter semantics.
- Db.SelectOrdering: states the order the shim requests. The reference `RunRead` does not sort, because sorting is done by the store, which is not modelled.
- The regular-expression engine: a statement carries its captures as fields, so `\w+`, `\s*` and case-insensitive matching are trusted, not modelled.
- Console logging (`console.error` in `backend/db.js`, `backend/auth.js` and the client's `auth.ts`) and the navigation to `/login` on logout: they have no effect on the state modelled, so `Session.Logout` changes only the storage, the flag and the name.
- JWT signing, verification and decoding: they are parameters (`sign`, `verify`, `decode`), and token expiry is not modelled.
- `toUpperCase` beyond ASCII letters, and `trim` beyond the ASCII and common Unicode spaces modelled in `Text.IsSpace`.
- JavaScript numbers are doubles. Money is modelled as integer cents and integers are unbounded, so rounding and `toFixed(2)` (`formatCurrency`) are left out.
- `String()` of an integer is modelled as decimal digits; the exponent form of very large numbers is left out.
- A null `data` from the store is answered as an empty list by SELECT, but the handlers' lookups are modelled only with a list or an error.
- `registro.ts`, the login page, the product pages, the admin panel, the navbar and `server.js`: they are not part of this model.
- The QR display, the file upload (`onFileSelected`, with its Supabase storage call), and the PDF and HTML rendering of the voucher (only the rows, the total, the code and the file names are modelled). The error message set when PDF generation fails is also left out.
- Persisting the cart to `localStorage` as JSON: the cart is a value.
- The server-side order creation (stock decrement, order, payment and order lines, tracking code generation) is not among these files. It is not modelled: the page sees only the reply.
- Observables, `subscribe` and the asynchrony of `db.query`: each exchange is one outcome, and concurrency is not modelled.
- AuthApi.Login, AuthApi.Register: the handlers in `auth.js` call `db.query` with a callback but neither await it nor catch it. After each 500 answer the rethrown error therefore becomes an unhandled promise rejection. The model stops at the answer.
- Db.Satisfies / Db.RunRead: the reference store compares values by strict structural equality. Supabase's `eq` casts the value to the column's type (the number `5` matches the text `'5'`), and SQL's `=` with NULL matches nothing. Neither is modelled.
- AuthStore.DniConflictNeverReported: holds under strict equality. With the store's casting `eq`, an email given as a number can return a row whose email is the string form. The handler's `===` then fails on that row, so its DNI test can still fire and answer the DNI 409.
- AuthStore.StoredUser, AuthStore.AsWrittenRowFields, AuthStore.AsWrittenRegistrationLockedOut: the table's schema is not among these files. The default of `tipo` is therefore a parameter, and the lock-out is stated for a default other than `registrado`. The defaults of other columns are not modelled: an undefined value there reads back as absent, where the store would give the default or NULL.
- Db.NormaliseArgs: a call `db.query(sql)` with no parameters at all is not modelled. A SELECT with a WHERE condition would then fail at `params.length`, and the catch block would rethrow that error. No caller in these files makes such a call.
- Db.UnsupportedPrefix: counts characters, while JavaScript's `substring(0, 20)` counts UTF-16 code units, so text outside the basic plane is cut differently.
- Db.ErrorsReportedAndRethrown, Db.CompleteReports: state the outcome for a callback that returns. A callback that throws is covered by Db.CallbackThrowsReported.

## Findings

| source | as written | input that shows it | evidently intended | confidence | as-written member | corrected member |
|---|---|---|---|---|---|---|
| backend/auth.js:73 | the conflict lookup `WHERE email = ? OR dni = ?` goes through the shim, which keeps only `email = ?`; the DNI branch at line 83 can never be taken | a `usuarios` row with DNI `12345678` and email `a@x.pe`, then registering `b@x.pe` with DNI `12345678`: the user is inserted a second time | reject a registration whose DNI is already on file with 409 "El DNI ya está registrado." | not executed | AuthStore.DniConflictNeverReported, AuthStore.DuplicateDniInserted | AuthStore.IntendedReportsDniConflict, AuthStore.IntendedRegisterNoDuplicates |
| backend/auth.js:38 | the user lookup `WHERE email = ? AND tipo = "registrado"` goes through the shim, which keeps only `email = ?`, and login checks only the first row | `usuarios` holding first a non-registered row with email `a@x.pe` and another password, then the registered row with `a@x.pe`: the registered user's correct password gets 401. `register` cannot create this state, because its email lookup answers 409 once the first row exists. The non-registered row must come from outside these files, for instance written directly by the server. The read has no ORDER BY, so the row order is the store's, taken here as table order | look the user up among registered users only, so the registered row is the one checked | not executed | AuthStore.ShadowedRegistrationRefused | AuthStore.ShadowedRegistrationAdmitted, AuthStore.IntendedLoginOnlyRegistered |
| backend/auth.js:88-91 | the INSERT lists eight columns with the `'registrado'` literal last, but the shim binds the seven `?` values positionally, so `tipo` is bound to undefined. The key is then not sent, and the column takes its default. Unless that default is `registrado`, a lookup that asks for `tipo = "registrado"` (the intent of line 38) never finds a user registered through the app | with a `tipo` default other than `registrado`: registering `a@x.pe` with password `p`, then logging in with `a@x.pe` and `p` under the registered-user lookup gives 401 | the stored row's `tipo` is `registrado`, so the registered-user lookup finds it | not executed; depends on the table's default for `tipo`, which is not among these files | AuthStore.AsWrittenRowFields, AuthStore.AsWrittenRegistrationLockedOut | AuthStore.IntendedInsertRowTyped, AuthStore.IntendedRegistrationLogsIn |

=== FILE: auth_api.dfy ===
/**
 * The backend's authentication handlers (`login`, `register`) and middleware
 * (`verifyToken`, `verifyAdmin`) as decision functions.
 *
 * Every handler issues its queries through the shim of module Db; a decision
 * records the queries it issued, in order, and the HTTP response it sends. The
 * rows each query's callback receives are parameters. Signing and verifying
 * tokens is foreign code: login and register return the claims they would sign,
 * and the middleware takes the verifier as a function.
 */
module AuthApi {
  import opened Wrappers
  import opened Text
  import opened Values
  import opened Db

  // ---------------------------------------------------------------------------
  // The fixed statements, with the captures the shim's regular expressions give on them.
  // Each text is written as a concatenation of short pieces; the pieces join to the
  // statement in the source character for character.

  const AdminLookupText: string :=
    "SELECT id, email, " + "password " + "FROM administradores " + "WHERE email = ?"

  const AdminLookupSql: Statement := Statement(
    AdminLookupText,
    Some("administradores"), None, None, None, None, Some("email"), Some("administradores"), None)

  const UserLookupText: string :=
    "SELECT id, email, " + "password, nombre " + "FROM usuarios " + "WHERE email = ? " + "AND tipo = \"registrado\""

  const UserLookupSql: Statement := Statement(
    UserLookupText,
    Some("usuarios"), None, None, None, None, Some("email"), Some("usuarios"), None)

  const ConflictLookupText: string :=
    "SELECT email, dni " + "FROM usuarios " + "WHERE email = ? " + "OR dni = ?"

  const ConflictLookupSql: Statement := Statement(
    ConflictLookupText,
    Some("usuarios"), None, None, None, None, Some("email"), Some("usuarios"), None)

  /** The columns the user insert names, in order. */
  const InsertColumnNames: seq<string> :=
    ["dni", "nombre", "apellido", "email", "password", "telefono", "direccion", "tipo"]

  /** The parenthesised column list of the user insert, `dni, nombre, ..., tipo`. */
  const InsertColumns: string := CommaList(InsertColumnNames)

  /** The line break and indentation before each line of the insert's template literal. */
  const Indent: string := "\n            "

  /** The insert's text up to its column list, and the rest from the column list on. */
  const InsertHead: string := Indent + "INSERT INTO usuarios ("
  const InsertTail: string :=
    InsertColumns + ")" + Indent + "VALUES (?, ?, ?, ?, " + "?, ?, ?, 'registrado')" + "\n        "

  const InsertUserText: string := InsertHead + InsertTail

  const InsertUserSql: Statement := Statement(
    InsertUserText,
    None, Some("usuarios"), Some(InsertColumns), None, None, None, None, None)

  // ---------------------------------------------------------------------------
  // Decisions

  datatype QueryCall = QueryCall(sql: Statement, params: seq<Value>)

  /** What a lookup's callback receives: an error, or the rows. */
  datatype Lookup = LookupFailed | Rows(rows: seq<Row>)

  /** What the insert's callback receives: an error, or the result with its `insertId`. */
  datatype InsertAnswer = InsertFailed | Inserted(insertId: Value)

  /** The payload a token is signed over. */
  datatype Claims = Claims(id: Value, email: Value, role: Value, nombre: Option<Value>)

  datatype Body =
    | Mensaje(text: string)
      /** A session: the claims of the token, the role and name shown to the client. */
    | Welcome(token: Claims, rol: string, nombre: Option<Value>, mensaje: string)

  datatype Response = Response(status: int, body: Body)

  /** The queries a handler issued, in order, and the response it sent. */
  datatype Decision = Decision(queries: seq<QueryCall>, response: Response)

  const LoginMissing := "Email y contraseña son obligatorios."
  const ServerError := "Error interno del servidor."
  const BadCredentials := "Credenciales inválidas o usuario no registrado."
  const RegisterMissing := "Los campos Nombre, Email y Contraseña son obligatorios."
  const EmailTaken := "El email ya está registrado."
  const DniTaken := "El DNI ya está registrado."
  const InsertError := "Error al registrar el usuario."

  /** The lookup found a first row whose stored password equals the given one. */
  predicate FirstRowPasswordIs(l: Lookup, password: Value) {
    l.Rows? && |l.rows| > 0 && Field(l.rows[0], "password") == password
  }

  /** `login`: admin table first, then registered users, otherwise 401. */
  function Login(email: Value, password: Value, admins: Lookup, users: Lookup): (d: Decision)
    ensures d.queries == [] <==> !HasCredentials(email, password)
    ensures d.response.body.Welcome? ==> FirstRowPasswordIs(admins, password) || FirstRowPasswordIs(users, password)
    ensures d.response.body.Welcome? ==> d.response.body.token.role == Str(d.response.body.rol)
  {
    if !Truthy(email) || !Truthy(password) then Decision([], Response(400, Mensaje(LoginMissing)))
    else
      var q1 := QueryCall(AdminLookupSql, [email]);
      if admins.LookupFailed? then Decision([q1], Response(500, Mensaje(ServerError)))
      else if FirstRowPasswordIs(admins, password) then
        var admin := admins.rows[0];
        var claims := Claims(Field(admin, "id"), Field(admin, "email"), Str("admin"), None);
        Decision([q1], Response(200, Welcome(claims, "admin", None, "Bienvenido, Administrador.")))
      else
        var q2 := QueryCall(UserLookupSql, [email]);
        if users.LookupFailed? then Decision([q1, q2], Response(500, Mensaje(ServerError)))
        else if FirstRowPasswordIs(users, password) then
          var user := users.rows[0];
          var nombre := Field(user, "nombre");
          var claims := Claims(Field(user, "id"), Field(user, "email"), Str("cliente"), Some(nombre));
          var text := "Bienvenido, cliente " + Display(nombre) + ".";
          Decision([q1, q2], Response(200, Welcome(claims, "cliente", Some(nombre), text)))
        else Decision([q1, q2], Response(401, Mensaje(BadCredentials)))
  }

  datatype RegisterBody = RegisterBody(
    dni: Value, nombre: Value, apellido: Value, email: Value,
    password: Value, telefono: Value, direccion: Value)

  /** `rows.some(row => row[key] === v)`. */
  predicate ExistsWith(rows: seq<Row>, key: string, v: Value) {
    exists i :: 0 <= i < |rows| && Field(rows[i], key) == v
  }

  /** The positional values of the INSERT: absent optional fields become null. */
  function InsertValues(b: RegisterBody): seq<Value> {
    [Or(b.dni, Null), b.nombre, Or(b.apellido, Null), b.email, b.password, Or(b.telefono, Null), Or(b.direccion, Null)]
  }

  /** `register`: validate, check conflicts (email before DNI), insert, answer 201. */
  function Register(b: RegisterBody, conflicts: Lookup, inserted: InsertAnswer): (d: Decision)
    ensures d.response.body.Welcome? ==> |d.queries| == 2 && d.queries[1] == QueryCall(InsertUserSql, InsertValues(b))
    ensures d.response.body.Welcome? ==> d.response.body.rol == "cliente" && d.response.body.token.email == b.email
    ensures d.response.status == 409 ==> |d.queries| == 1 && conflicts.Rows? && |conflicts.rows| > 0
  {
    if !Truthy(b.nombre) || !Truthy(b.email) || !Truthy(b.password) then
      Decision([], Response(400, Mensaje(RegisterMissing)))
    else
      var q1 := QueryCall(ConflictLookupSql, [b.email, b.dni]);
      match conflicts
      case LookupFailed => Decision([q1], Response(500, Mensaje(ServerError)))
      case Rows(rows) =>
        if ExistsWith(rows, "email", b.email) then Decision([q1], Response(409, Mensaje(EmailTaken)))
        else if ExistsWith(rows, "dni", b.dni) then Decision([q1], Response(409, Mensaje(DniTaken)))
        else
          var q2 := QueryCall(InsertUserSql, InsertValues(b));
          match inserted
          case InsertFailed => Decision([q1, q2], Response(500, Mensaje(InsertError)))
          case Inserted(id) =>
            var claims := Claims(id, b.email, Str("cliente"), Some(b.nombre));
            Decision([q1, q2], Response(201, Welcome(claims, "cliente", Some(b.nombre), "Registro exitoso. ¡Bienvenido!")))
  }

  // ---------------------------------------------------------------------------
  // Middleware

  datatype Gate = Proceed(user: Claims) | Deny(response: Response)

  /** `authHeader && authHeader.split(' ')[1]`, then the `!token` test. */
  function BearerToken(header: Option<string>): (t: Option<string>)
    ensures t.Some? ==> header.Some? && ' ' in header.value && t.value != "" && ' ' !in t.value
  {
    if header.None? || header.value == "" then None
    else
      var parts := Split(header.value, ' ');
      if |parts| < 2 || parts[1] == "" then None
      else
        assert ' ' in header.value by {
          if ' ' !in header.value { SplitWithoutSeparator(header.value, ' '); }
        }
        Some(parts[1])
  }

  /** `verifyToken`: no token is 401, a token the verifier rejects is 403, otherwise continue. */
  function VerifyToken(header: Option<string>, verify: string -> Option<Claims>): (g: Gate)
    ensures g.Proceed? ==> BearerToken(header).Some? && verify(BearerToken(header).value) == Some(g.user)
    ensures g.Deny? ==> g.response.status == (if BearerToken(header).None? then 401 else 403)
  {
    match BearerToken(header)
    case None => Deny(Response(401, Mensaje("Acceso denegado. Se requiere Token.")))
    case Some(token) =>
      match verify(token)
      case None => Deny(Response(403, Mensaje("Token inválido o expirado.")))
      case Some(claims) => Proceed(claims)
  }

  /** `verifyAdmin`: verifyToken, then only the role `'admin'` continues. */
  function VerifyAdmin(header: Option<string>, verify: string -> Option<Claims>): (g: Gate)
    ensures g.Proceed? ==> VerifyToken(header, verify) == g && g.user.role == Str("admin")
    ensures g.Deny? ==> g.response.status == 401 || g.response.status == 403
  {
    match VerifyToken(header, verify)
    case Deny(r) => Deny(r)
    case Proceed(claims) =>
      if claims.role == Str("admin") then Proceed(claims)
      else Deny(Response(403, Mensaje("Acceso prohibido. Solo para administradores.")))
  }

  // ---------------------------------------------------------------------------
  // Login

  predicate HasCredentials(email: Value, password: Value) {
    Truthy(email) && Truthy(password)
  }

  /** Missing credentials are a 400 before any query; otherwise the admin table is asked first. */
  lemma LoginValidation(email: Value, password: Value, admins: Lookup, users: Lookup)
    ensures var d := Login(email, password, admins, users);
      && (d.response.status == 400 <==> !HasCredentials(email, password))
      && (d.response.status == 400 ==> d.queries == [] && d.response.body == Mensaje(LoginMissing))
      && (d.response.status != 400 ==> |d.queries| >= 1 && d.queries[0] == QueryCall(AdminLookupSql, [email]))
  {
  }

  /**
   * Login succeeds as administrator exactly when the first admin row has the given
   * password; then the user table is never consulted and the token carries role admin.
   */
  lemma LoginAsAdmin(email: Value, password: Value, admins: Lookup, users: Lookup)
    ensures var d := Login(email, password, admins, users);
      (d.response.body.Welcome? && d.response.body.rol == "admin") <==>
        HasCredentials(email, password) && FirstRowPasswordIs(admins, password)
    ensures var d := Login(email, password, admins, users);
      HasCredentials(email, password) && FirstRowPasswordIs(admins, password) ==>
        && d.queries == [QueryCall(AdminLookupSql, [email])]
        && d.response.status == 200
        && d.response.body.token ==
             Claims(Field(admins.rows[0], "id"), Field(admins.rows[0], "email"), Str("admin"), None)
  {
  }

  /**
   * Login succeeds as client exactly when the admin lookup answered without a matching
   * first row and the first user row has the given password; the greeting names the user.
   */
  lemma LoginAsClient(email: Value, password: Value, admins: Lookup, users: Lookup)
    ensures var d := Login(email, password, admins, users);
      (d.response.body.Welcome? && d.response.body.rol == "cliente") <==>
        && HasCredentials(email, password) && admins.Rows? && !FirstRowPasswordIs(admins, password)
        && FirstRowPasswordIs(users, password)
    ensures var d := Login(email, password, admins, users);
      d.response.body.Welcome? && d.response.body.rol == "cliente" ==>
        var nombre := Field(users.rows[0], "nombre");
        && d.queries == [QueryCall(AdminLookupSql, [email]), QueryCall(UserLookupSql, [email])]
        && d.response.status == 200
        && d.response.body.token ==
             Claims(Field(users.rows[0], "id"), Field(users.rows[0], "email"), Str("cliente"), Some(nombre))
        && d.response.body.mensaje == "Bienvenido, cliente " + Display(nombre) + "."
  {
  }

  /** 401 exactly when both lookups answered and neither first row has the password. */
  lemma LoginUnauthorized(email: Value, password: Value, admins: Lookup, users: Lookup)
    ensures var d := Login(email, password, admins, users);
      d.response.status == 401 <==>
        && HasCredentials(email, password)
        && admins.Rows? && !FirstRowPasswordIs(admins, password)
        && users.Rows? && !FirstRowPasswordIs(users, password)
    ensures var d := Login(email, password, admins, users);
      d.response.status == 401 ==> d.response.body == Mensaje(BadCredentials)
  {
  }

  /** 500 exactly when a lookup that was actually needed failed. */
  lemma LoginServerError(email: Value, password: Value, admins: Lookup, users: Lookup)
    ensures var d := Login(email, password, admins, users);
      d.response.status == 500 <==>
        HasCredentials(email, password) &&
        (admins.LookupFailed? || (!FirstRowPasswordIs(admins, password) && users.LookupFailed?))
    ensures var d := Login(email, password, admins, users);
      d.response.status == 500 ==> d.response.body == Mensaje(ServerError)
  {
  }

  /** Every response is one of 200, 400, 401, 500, and only 200 opens a session. */
  lemma LoginStatuses(email: Value, password: Value, admins: Lookup, users: Lookup)
    ensures var d := Login(email, password, admins, users);
      && d.response.status in {200, 400, 401, 500}
      && (d.response.body.Welcome? <==> d.response.status == 200)
  {
  }

  // ---------------------------------------------------------------------------
  // Register

  predicate HasRequiredFields(b: RegisterBody) {
    Truthy(b.nombre) && Truthy(b.email) && Truthy(b.password)
  }

  /** The required fields are checked before any query. */
  lemma RegisterValidation(b: RegisterBody, conflicts: Lookup, inserted: InsertAnswer)
    ensures var d := Register(b, conflicts, inserted);
      && (d.response.status == 400 <==> !HasRequiredFields(b))
      && (d.response.status == 400 ==> d.queries == [] && d.response.body == Mensaje(RegisterMissing))
      && (d.response.status != 400 ==> |d.queries| >= 1 && d.queries[0] == QueryCall(ConflictLookupSql, [b.email, b.dni]))
  {
  }

  /** A row with the same email wins over a row with the same DNI: the email conflict is reported. */
  lemma RegisterEmailConflictFirst(b: RegisterBody, rows: seq<Row>, inserted: InsertAnswer)
    requires HasRequiredFields(b)
    ensures var d := Register(b, Rows(rows), inserted);
      && (ExistsWith(rows, "email", b.email) ==>
            d.response == Response(409, Mensaje(EmailTaken)) && |d.queries| == 1)
      && (!ExistsWith(rows, "email", b.email) && ExistsWith(rows, "dni", b.dni) ==>
            d.response == Response(409, Mensaje(DniTaken)) && |d.queries| == 1)
  {
  }

  /**
   * The user is inserted exactly when the fields are present, the lookup answered and no
   * returned row shares the email or the DNI; the insert carries the seven body values.
   */
  lemma RegisterInsertsOnlyWithoutConflict(b: RegisterBody, conflicts: Lookup, inserted: InsertAnswer)
    ensures var d := Register(b, conflicts, inserted);
      |d.queries| == 2 <==>
        && HasRequiredFields(b) && conflicts.Rows?
        && !ExistsWith(conflicts.rows, "email", b.email) && !ExistsWith(conflicts.rows, "dni", b.dni)
    ensures var d := Register(b, conflicts, inserted);
      |d.queries| == 2 ==> d.queries[1] == QueryCall(InsertUserSql, InsertValues(b))
  {
  }

  /** A successful registration answers 201 with a client token for the new id. */
  lemma RegisterSuccess(b: RegisterBody, conflicts: Lookup, inserted: InsertAnswer)
    ensures var d := Register(b, conflicts, inserted);
      d.response.status == 201 <==> |d.queries| == 2 && inserted.Inserted?
    ensures var d := Register(b, conflicts, inserted);
      d.response.status == 201 ==>
        d.response.body ==
          Welcome(Claims(inserted.insertId, b.email, Str("cliente"), Some(b.nombre)),
                  "cliente", Some(b.nombre), "Registro exitoso. ¡Bienvenido!")
    ensures var d := Register(b, conflicts, inserted);
      |d.queries| == 2 && inserted.InsertFailed? ==> d.response == Response(500, Mensaje(InsertError))
  {
  }

  /** The required fields travel as given; an absent optional field is sent as null, never undefined. */
  lemma InsertValuesShape(b: RegisterBody)
    requires HasRequiredFields(b)
    ensures var vs := InsertValues(b);
      && |vs| == 7
      && vs[1] == b.nombre && vs[3] == b.email && vs[4] == b.password
      && (forall i :: 0 <= i < 7 ==> vs[i] != Undefined)
      && (Truthy(b.dni) ==> vs[0] == b.dni) && (!Truthy(b.dni) ==> vs[0] == Null)
      && (Truthy(b.telefono) ==> vs[5] == b.telefono) && (!Truthy(b.telefono) ==> vs[5] == Null)
  {
  }

  // ---------------------------------------------------------------------------
  // Middleware

  /** A header `<scheme> <token>` yields the token when neither part has a space. */
  lemma BearerTokenOfHeader(scheme: string, token: string)
    requires ' ' !in scheme && ' ' !in token && token != ""
    ensures BearerToken(Some(scheme + " " + token)) == Some(token)
  {
    SplitTwo(scheme, token, ' ');
  }

  /** The `Bearer <token>` header the client sends yields the token back. */
  lemma BearerHeader(token: string)
    requires ' ' !in token && token != ""
    ensures BearerToken(Some("Bearer " + token)) == Some(token)
  {
    assert "Bearer " + token == "Bearer" + " " + token;
    BearerTokenOfHeader("Bearer", token);
  }

  /** A missing or empty header, or one without a space, yields no token. */
  lemma BearerTokenAbsent(header: Option<string>)
    requires header.Some? ==> ' ' !in header.value
    ensures BearerToken(header) == None
  {
    if header.Some? {
      SplitWithoutSeparator(header.value, ' ');
    }
  }

  /** A token, when there is one, is the non-empty second space-separated word. */
  lemma BearerTokenIsSecondWord(header: Option<string>)
    ensures BearerToken(header).Some? ==>
      && header.Some?
      && BearerToken(header).value != ""
      && ' ' !in BearerToken(header).value
      && |Split(header.value, ' ')| >= 2
      && Split(header.value, ' ')[1] == BearerToken(header).value
  {
  }

  /** 401 without a token, 403 for a token the verifier rejects, otherwise the decoded claims. */
  lemma VerifyTokenOutcomes(header: Option<string>, verify: string -> Option<Claims>)
    ensures var g := VerifyToken(header, verify);
      && (g.Deny? && g.response.status == 401 <==> BearerToken(header).None?)
      && (g.Deny? && g.response.status == 403 <==>
            BearerToken(header).Some? && verify(BearerToken(header).value).None?)
      && (g.Proceed? <==> BearerToken(header).Some? && verify(BearerToken(header).value).Some?)
      && (g.Proceed? ==> g.user == verify(BearerToken(header).value).value)
  {
  }

  /** The admin gate lets through exactly the verified tokens whose role is `admin`. */
  lemma VerifyAdminOutcomes(header: Option<string>, verify: string -> Option<Claims>)
    ensures var g := VerifyAdmin(header, verify);
      var t := VerifyToken(header, verify);
      && (g.Proceed? <==> t.Proceed? && t.user.role == Str("admin"))
      && (g.Proceed? ==> g == t)
      && (t.Deny? ==> g == t)
      && (t.Proceed? && t.user.role != Str("admin") ==>
            g == Deny(Response(403, Mensaje("Acceso prohibido. Solo para administradores."))))
  {
  }

  /**
   * A token signed over an administrator login's claims passes the admin gate, given a
   * verifier that accepts what the signer produces and tokens without spaces.
   */
  lemma AdminLoginPassesAdminGate(email: Value, password: Value, admins: Lookup, users: Lookup,
                                  sign: Claims -> string, verify: string -> Option<Claims>)
    requires HasCredentials(email, password) && FirstRowPasswordIs(admins, password)
    requires var c := Login(email, password, admins, users).response.body.token;
      verify(sign(c)) == Some(c) && ' ' !in sign(c) && sign(c) != ""
    ensures var c := Login(email, password, admins, users).response.body.token;
      VerifyAdmin(Some("Bearer " + sign(c)), verify) == Proceed(c)
  {
    var c := Login(email, password, admins, users).response.body.token;
    BearerHeader(sign(c));
  }

  /** A client's token from login or registration passes verifyToken but not the admin gate. */
  lemma ClientTokenStopsAtAdminGate(c: Claims, sign: Claims -> string, verify: string -> Option<Claims>)
    requires c.role == Str("cliente")
    requires verify(sign(c)) == Some(c) && ' ' !in sign(c) && sign(c) != ""
    ensures VerifyToken(Some("Bearer " + sign(c)), verify) == Proceed(c)
    ensures VerifyAdmin(Some("Bearer " + sign(c)), verify) ==
      Deny(Response(403, Mensaje("Acceso prohibido. Solo para administradores.")))
  {
    BearerHeader(sign(c));
  }

  /** Client logins and registrations sign claims with role `cliente`. */
  lemma ClientSessionsCarryClientRole(email: Value, password: Value, admins: Lookup, users: Lookup,
                                      b: RegisterBody, conflicts: Lookup, inserted: InsertAnswer)
    ensures var d := Login(email, password, admins, users);
      d.response.body.Welcome? ==> (d.response.body.token.role == Str("cliente") <==> d.response.body.rol == "cliente")
    ensures var d := Register(b, conflicts, inserted);
      d.response.body.Welcome? ==> d.response.body.token.role == Str("cliente") && d.response.body.rol == "cliente"
  {
  }
}

=== FILE: auth_store.dfy ===
/**
 * The authentication handlers run against a store through the SQL shim.
 *
 * The shim applies only the first `col = ?` condition of a SELECT, so the user lookup
 * of login loses its `tipo` condition and the conflict lookup of register loses its
 * `OR dni = ?` alternative. This module spells out the plans the shim makes of the
 * handlers' fixed statements and what the handlers decide on a store of tables.
 */
module AuthStore {
  import opened Wrappers
  import opened Text
  import opened Values
  import opened Db
  import opened AuthApi

  /** The store: table name to its rows, in store order. */
  type Tables = map<string, seq<Row>>

  /**
   * What the store answers to a planned operation: a Read runs against its table and
   * an unknown table is an error; the handlers' lookups plan nothing else.
   */
  function StoreAnswer(tables: Tables, plan: Result<Plan, DbError>): StoreReply {
    match plan
    case Ok(Read(t, fs, _)) => if t in tables then Data(Some(RunRead(tables[t], fs))) else StoreError("42P01")
    case _ => Data(None)
  }

  /** What a lookup's callback receives when the query goes through the shim to the store. */
  function LookupVia(tables: Tables, q: QueryCall): Lookup {
    var o := Query(q.sql, Params(q.params), true, StoreAnswer(tables, PlanQuery(q.sql, q.params)));
    match o.callback
    case Some(CallbackCall(None, Some(RowsPayload(rows)))) => Rows(rows)
    case _ => LookupFailed
  }

  /** A planned Read reaches the callback as the matching rows of its table, or as an error. */
  lemma LookupViaRead(tables: Tables, q: QueryCall, t: string, fs: seq<Filter>, order: Option<Ordering>)
    requires PlanQuery(q.sql, q.params) == Ok(Read(t, fs, order))
    ensures t in tables ==> LookupVia(tables, q) == Rows(RunRead(tables[t], fs))
    ensures t !in tables ==> LookupVia(tables, q) == LookupFailed
  {
  }

  // ---------------------------------------------------------------------------
  // The plans of the fixed statements

  /** A SELECT without `activo = TRUE` or an ORDER BY clause reads its FROM table with the WHERE filter only. */
  lemma PlainSelectPlan(st: Statement, params: seq<Value>)
    requires StartsWith(Normalised(st.text), "SELECT") && !Contains(st.text, "activo = TRUE")
    requires st.fromTable.Some? && st.whereColumn.Some? && st.orderClause.None? && |params| > 0
    ensures PlanQuery(st, params) == Ok(Read(st.fromTable.value, [Eq(st.whereColumn.value, params[0])], None))
  {
    assert KindOf(st) == SelectKind;
    SelectPlanShape(st, params);
    var key := [Eq(st.whereColumn.value, params[0])];
    assert KeyFilter(st, params) == key && ActiveFilter(st.text) == [] && SelectOrder(st) == None;
    assert key + [] == key;
  }

  /** A text whose first six characters are `SELECT` is dispatched as a SELECT. */
  lemma OpensWithSelect(s: string)
    requires |s| >= 6 && s[0..6] == "SELECT"
    ensures StartsWith(Normalised(s), "SELECT")
  {
    NormalisedStartsWith(s, 0, "SELECT");
  }

  /** A text without a `v` never asks for the `activo = TRUE` filter. */
  lemma NoActiveFilter(s: string)
    requires 'v' !in s
    ensures !Contains(s, "activo = TRUE")
  {
    assert "activo = TRUE"[4] == 'v';
    NotContainsMissingChar(s, "activo = TRUE", 'v');
  }

  lemma AdminLookupTextLacksV()
    ensures 'v' !in AdminLookupText
  {
  }

  lemma UserLookupTextLacksV()
    ensures 'v' !in UserLookupText
  {
  }

  lemma ConflictLookupTextLacksV()
    ensures 'v' !in ConflictLookupText
  {
  }

  /** The admin lookup reads `administradores` filtered on the email. */
  lemma AdminLookupPlan(email: Value)
    ensures PlanQuery(AdminLookupSql, [email]) == Ok(Read("administradores", [Eq("email", email)], None))
  {
    assert AdminLookupText[0..6] == "SELECT";
    AdminLookupTextLacksV();
    OpensWithSelect(AdminLookupText);
    NoActiveFilter(AdminLookupText);
    PlainSelectPlan(AdminLookupSql, [email]);
  }

  /**
   * The user lookup reads `usuarios` filtered on the email only: the condition
   * `tipo = "registrado"` never reaches the store.
   */
  lemma UserLookupPlan(email: Value)
    ensures PlanQuery(UserLookupSql, [email]) == Ok(Read("usuarios", [Eq("email", email)], None))
  {
    assert UserLookupText[0..6] == "SELECT";
    UserLookupTextLacksV();
    OpensWithSelect(UserLookupText);
    NoActiveFilter(UserLookupText);
    PlainSelectPlan(UserLookupSql, [email]);
  }

  /**
   * The conflict lookup reads `usuarios` filtered on the email only: the alternative
   * `OR dni = ?` never reaches the store, and the DNI parameter is unused.
   */
  lemma ConflictLookupPlan(email: Value, dni: Value)
    ensures PlanQuery(ConflictLookupSql, [email, dni]) == Ok(Read("usuarios", [Eq("email", email)], None))
  {
    assert ConflictLookupText[0..6] == "SELECT";
    ConflictLookupTextLacksV();
    OpensWithSelect(ConflictLookupText);
    NoActiveFilter(ConflictLookupText);
    PlainSelectPlan(ConflictLookupSql, [email, dni]);
  }

  /** The column list of the user insert reads back as its eight column names. */
  lemma InsertColumnNamesRead()
    ensures ColumnNames(InsertColumns) == InsertColumnNames
  {
    var names := InsertColumnNames;
    forall i | 0 <= i < |names| ensures ',' !in names[i] && Trimmed(names[i]) {
    }
    ColumnNamesOfCommaList(names);
  }

  /** A text that opens with a line break and indentation, then `INSERT`, is dispatched as an INSERT. */
  lemma OpensWithIndentedInsert(s: string)
    requires |s| >= 19 && s[..13] == Indent && s[13..19] == "INSERT"
    ensures StartsWith(Normalised(s), "INSERT")
  {
    forall i | 0 <= i < 13 ensures IsSpace(s[i]) {
      assert s[i] == s[..13][i];
    }
    NormalisedStartsWith(s, 13, "INSERT");
  }

  /** A text that opens with the insert's head is dispatched as an INSERT. */
  lemma OpensWithInsertHead(s: string)
    requires StartsWith(s, InsertHead)
    ensures StartsWith(Normalised(s), "INSERT")
  {
    var w := "INSERT INTO usuarios (";
    assert |Indent| == 13;
    assert s[..13] == InsertHead[..13] == Indent;
    assert w[..6] == "INSERT";
    assert s[13..19] == InsertHead[13..19] == w[..6];
    OpensWithIndentedInsert(s);
  }

  /** The insert's text is dispatched as an INSERT. */
  lemma InsertUserTextIsInsert()
    ensures StartsWith(Normalised(InsertUserText), "INSERT")
  {
    var head, tail := InsertHead, InsertTail;
    assert (head + tail)[..|head|] == head;
    OpensWithInsertHead(head + tail);
  }

  /** The insert goes to `usuarios` and binds its column names to the parameters. */
  lemma InsertUserPlanShape(params: seq<Value>)
    ensures PlanQuery(InsertUserSql, params) == Ok(Insert("usuarios", BindColumns(InsertColumnNames, params)))
  {
    InsertUserTextIsInsert();
    KindOfWord(InsertUserSql);
    InsertColumnNamesRead();
  }

  lemma InsertColumnNamesDistinct()
    ensures Distinct(InsertColumnNames)
  {
  }

  /** Seven parameters against the eight insert columns: each value in its column, `tipo` undefined. */
  lemma InsertRowBinding(ps: seq<Value>)
    requires |ps| == 7
    ensures var row := BindColumns(InsertColumnNames, ps);
      && (forall k :: k in row <==> k in InsertColumnNames)
      && Field(row, "dni") == ps[0] && Field(row, "nombre") == ps[1] && Field(row, "apellido") == ps[2]
      && Field(row, "email") == ps[3] && Field(row, "password") == ps[4] && Field(row, "telefono") == ps[5]
      && Field(row, "direccion") == ps[6] && Field(row, "tipo") == Undefined
  {
    var names := InsertColumnNames;
    InsertColumnNamesDistinct();
    BindColumnsPositional(names, ps, 0);
    BindColumnsPositional(names, ps, 1);
    BindColumnsPositional(names, ps, 2);
    BindColumnsPositional(names, ps, 3);
    BindColumnsPositional(names, ps, 4);
    BindColumnsPositional(names, ps, 5);
    BindColumnsPositional(names, ps, 6);
    BindColumnsPositional(names, ps, 7);
  }

  /**
   * The user insert writes eight columns from seven parameters: the seven body values
   * land in their columns, and `tipo` is bound to `params[7]`, which is undefined; the
   * literal `'registrado'` of the statement is never read.
   */
  lemma InsertUserPlan(b: RegisterBody)
    ensures var r := PlanQuery(InsertUserSql, InsertValues(b));
      && r.Ok? && r.value.Insert? && r.value.table == "usuarios"
      && (forall k :: k in r.value.row <==> k in InsertColumnNames)
      && Field(r.value.row, "dni") == Or(b.dni, Null)
      && Field(r.value.row, "nombre") == b.nombre
      && Field(r.value.row, "apellido") == Or(b.apellido, Null)
      && Field(r.value.row, "email") == b.email
      && Field(r.value.row, "password") == b.password
      && Field(r.value.row, "telefono") == Or(b.telefono, Null)
      && Field(r.value.row, "direccion") == Or(b.direccion, Null)
      && Field(r.value.row, "tipo") == Undefined
  {
    InsertUserPlanShape(InsertValues(b));
    InsertRowBinding(InsertValues(b));
  }

  // ---------------------------------------------------------------------------
  // The handlers on a store

  /** `login` with both lookups going through the shim to the store. */
  function LoginOn(tables: Tables, email: Value, password: Value): Decision {
    Login(email, password,
          LookupVia(tables, QueryCall(AdminLookupSql, [email])),
          LookupVia(tables, QueryCall(UserLookupSql, [email])))
  }

  /** `register` with its conflict lookup going through the shim to the store. */
  function RegisterOn(tables: Tables, b: RegisterBody, inserted: InsertAnswer): Decision {
    Register(b, LookupVia(tables, QueryCall(ConflictLookupSql, [b.email, b.dni])), inserted)
  }

  /** Through the shim, both login lookups select by email alone. */
  lemma LoginOnReadsByEmail(tables: Tables, email: Value, password: Value)
    requires "administradores" in tables && "usuarios" in tables
    ensures LoginOn(tables, email, password) ==
      Login(email, password,
            Rows(RunRead(tables["administradores"], [Eq("email", email)])),
            Rows(RunRead(tables["usuarios"], [Eq("email", email)])))
  {
    AdminLookupPlan(email);
    UserLookupPlan(email);
    LookupViaRead(tables, QueryCall(AdminLookupSql, [email]), "administradores", [Eq("email", email)], None);
    LookupViaRead(tables, QueryCall(UserLookupSql, [email]), "usuarios", [Eq("email", email)], None);
  }

  /** Through the shim, the conflict lookup selects by email alone. */
  lemma RegisterOnReadsByEmail(tables: Tables, b: RegisterBody, inserted: InsertAnswer)
    requires "usuarios" in tables
    ensures RegisterOn(tables, b, inserted) ==
      Register(b, Rows(RunRead(tables["usuarios"], [Eq("email", b.email)])), inserted)
  {
    ConflictLookupPlan(b.email, b.dni);
    LookupViaRead(tables, QueryCall(ConflictLookupSql, [b.email, b.dni]), "usuarios", [Eq("email", b.email)], None);
  }

  // ---------------------------------------------------------------------------
  // The DNI conflict, as written and as intended

  /** Every row a by-email read returns has that email. */
  lemma ReadByEmailMatches(rows: seq<Row>, email: Value)
    ensures var r := RunRead(rows, [Eq("email", email)]);
      forall i :: 0 <= i < |r| ==> Field(r[i], "email") == email
  {
    var r := RunRead(rows, [Eq("email", email)]);
    forall i | 0 <= i < |r| ensures Field(r[i], "email") == email {
      assert r[i] in r;
      assert [Eq("email", email)][0] == Eq("email", email);
      assert SatisfiesAll(r[i], [Eq("email", email)]);
      assert Satisfies(r[i], Eq("email", email));
    }
  }

  /** When every returned row has the email, the DNI conflict can never be the answer. */
  lemma EmailRowsNeverDniConflict(b: RegisterBody, rows: seq<Row>, inserted: InsertAnswer)
    requires forall i :: 0 <= i < |rows| ==> Field(rows[i], "email") == b.email
    ensures Register(b, Rows(rows), inserted).response != Response(409, Mensaje(DniTaken))
  {
    if |rows| > 0 {
      assert Field(rows[0], "email") == b.email;
    }
  }

  /**
   * As written, register never answers "El DNI ya está registrado.": every row the
   * lookup returns already has the email, so the email conflict is reported first.
   */
  lemma DniConflictNeverReported(tables: Tables, b: RegisterBody, inserted: InsertAnswer)
    ensures RegisterOn(tables, b, inserted).response != Response(409, Mensaje(DniTaken))
  {
    ConflictLookupPlan(b.email, b.dni);
    var q := QueryCall(ConflictLookupSql, [b.email, b.dni]);
    LookupViaRead(tables, q, "usuarios", [Eq("email", b.email)], None);
    if "usuarios" in tables {
      ReadByEmailMatches(tables["usuarios"], b.email);
      EmailRowsNeverDniConflict(b, RunRead(tables["usuarios"], [Eq("email", b.email)]), inserted);
    }
  }

  /** A by-email read where no row has the email returns nothing. */
  lemma {:induction false} ReadByEmailEmpty(rows: seq<Row>, email: Value)
    requires forall y :: y in rows ==> Field(y, "email") != email
    ensures RunRead(rows, [Eq("email", email)]) == []
  {
    if |rows| > 0 {
      assert !SatisfiesAll(rows[0], [Eq("email", email)]) by {
        assert rows[0] in rows;
        assert [Eq("email", email)][0] == Eq("email", email);
      }
      assert forall y :: y in rows[1..] ==> y in rows;
      ReadByEmailEmpty(rows[1..], email);
    }
  }

  /** With no conflicting row the user is inserted. */
  lemma NoConflictInserts(b: RegisterBody, inserted: InsertAnswer)
    requires HasRequiredFields(b)
    ensures Register(b, Rows([]), inserted).queries ==
      [QueryCall(ConflictLookupSql, [b.email, b.dni]), QueryCall(InsertUserSql, InsertValues(b))]
  {
  }

  /**
   * As written, a user whose DNI is already on file under another email is inserted:
   * the conflict lookup comes back empty.
   */
  lemma DuplicateDniInserted(tables: Tables, b: RegisterBody, inserted: InsertAnswer, x: Row)
    requires HasRequiredFields(b) && "usuarios" in tables
    requires x in tables["usuarios"] && Satisfies(x, Eq("dni", b.dni))
    requires forall y :: y in tables["usuarios"] ==> Field(y, "email") != b.email
    ensures var d := RegisterOn(tables, b, inserted);
      |d.queries| == 2 && d.queries[1] == QueryCall(InsertUserSql, InsertValues(b))
  {
    RegisterOnReadsByEmail(tables, b, inserted);
    ReadByEmailEmpty(tables["usuarios"], b.email);
    NoConflictInserts(b, inserted);
  }

  /** A value SQL's `=` can match: comparing with NULL (or an absent value, sent as NULL) matches no row. */
  predicate SqlComparable(v: Value) {
    !v.Null? && !v.Undefined?
  }

  /** The rows of a table whose email or DNI equals the given one (`WHERE email = ? OR dni = ?`). */
  function MatchEither(rows: seq<Row>, email: Value, dni: Value): (r: seq<Row>)
    ensures forall x :: x in r <==>
      (x in rows && ((SqlComparable(email) && Satisfies(x, Eq("email", email))) || (SqlComparable(dni) && Satisfies(x, Eq("dni", dni)))))
  {
    if |rows| == 0 then []
    else
      var rest := MatchEither(rows[1..], email, dni);
      if (SqlComparable(email) && Satisfies(rows[0], Eq("email", email))) || (SqlComparable(dni) && Satisfies(rows[0], Eq("dni", dni)))
      then [rows[0]] + rest
      else rest
  }

  /** `register` with the conflict lookup the statement asks for: email or DNI. */
  function RegisterIntended(tables: Tables, b: RegisterBody, inserted: InsertAnswer): Decision {
    var conflicts := if "usuarios" in tables then Rows(MatchEither(tables["usuarios"], b.email, b.dni)) else LookupFailed;
    Register(b, conflicts, inserted)
  }

  /** A row of a lookup where no row has `key` = `v` does not have it. */
  lemma NoRowWith(rows: seq<Row>, key: string, v: Value, x: Row)
    requires !ExistsWith(rows, key, v)
    ensures x in rows ==> Field(x, key) != v
  {
  }

  /**
   * With the intended lookup, a user is inserted only when no stored user has the email,
   * nor the DNI when one is given.
   */
  lemma IntendedRegisterNoDuplicates(tables: Tables, b: RegisterBody, inserted: InsertAnswer, x: Row)
    requires |RegisterIntended(tables, b, inserted).queries| == 2
    ensures "usuarios" in tables
    ensures x in tables["usuarios"] ==>
      !Satisfies(x, Eq("email", b.email)) && (SqlComparable(b.dni) ==> !Satisfies(x, Eq("dni", b.dni)))
  {
    var rows := MatchEither(tables["usuarios"], b.email, b.dni);
    NoRowWith(rows, "email", b.email, x);
    NoRowWith(rows, "dni", b.dni, x);
  }

  /** With the intended lookup, a DNI held by a user with another email is reported as such. */
  lemma IntendedReportsDniConflict(tables: Tables, b: RegisterBody, inserted: InsertAnswer, x: Row)
    requires HasRequiredFields(b) && SqlComparable(b.dni) && "usuarios" in tables
    requires x in tables["usuarios"] && Satisfies(x, Eq("dni", b.dni))
    requires forall y :: y in tables["usuarios"] ==> Field(y, "email") != b.email
    ensures RegisterIntended(tables, b, inserted).response == Response(409, Mensaje(DniTaken))
  {
    var rows := MatchEither(tables["usuarios"], b.email, b.dni);
    var i :| 0 <= i < |rows| && rows[i] == x;
    assert ExistsWith(rows, "dni", b.dni);
    assert !ExistsWith(rows, "email", b.email);
  }

  /** With the intended lookup, a registration without a DNI is never refused for its DNI. */
  lemma IntendedAbsentDniNoConflict(tables: Tables, b: RegisterBody, inserted: InsertAnswer)
    requires !SqlComparable(b.dni)
    ensures RegisterIntended(tables, b, inserted).response != Response(409, Mensaje(DniTaken))
  {
    if "usuarios" in tables {
      var rows := MatchEither(tables["usuarios"], b.email, b.dni);
      forall i | 0 <= i < |rows| ensures Field(rows[i], "email") == b.email {
        assert rows[i] in rows;
      }
      EmailRowsNeverDniConflict(b, rows, inserted);
    }
  }

  // ---------------------------------------------------------------------------
  // The user lookup of login, as written and as intended

  /** Two user rows with the same email, where the first is not the registered one. */
  predicate ShadowedRegistration(tables: Tables, email: Value, password: Value, g: Row, u: Row) {
    && HasCredentials(email, password)
    && "administradores" in tables && "usuarios" in tables
    && (forall y :: y in tables["administradores"] ==> Field(y, "email") != email)
    && tables["usuarios"] == [g, u]
    && Satisfies(g, Eq("email", email)) && !Satisfies(g, Eq("tipo", Str("registrado")))
    && Field(g, "password") != password
    && Satisfies(u, Eq("email", email)) && Satisfies(u, Eq("tipo", Str("registrado")))
    && Field(u, "password") == password
  }

  /**
   * As written, a stored row with the same email that is not a registered user (a guest,
   * say) and comes first hides the registered user: the login is refused with 401.
   */
  lemma ShadowedRegistrationRefused(tables: Tables, email: Value, password: Value, g: Row, u: Row)
    requires ShadowedRegistration(tables, email, password, g, u)
    ensures LoginOn(tables, email, password).response.status == 401
  {
    LoginOnReadsByEmail(tables, email, password);
    ReadByEmailEmpty(tables["administradores"], email);
    var users := RunRead([g, u], [Eq("email", email)]);
    assert [g, u][1..] == [u];
    assert SatisfiesAll(g, [Eq("email", email)]);
    assert users[0] == g;
  }

  /** The user lookup the statement asks for: the email and the type `registrado`. */
  function RegisteredUsers(tables: Tables, email: Value): Lookup {
    if "usuarios" in tables
    then Rows(RunRead(tables["usuarios"], [Eq("email", email), Eq("tipo", Str("registrado"))]))
    else LookupFailed
  }

  /** `login` with the intended user lookup. */
  function LoginIntended(tables: Tables, email: Value, password: Value): Decision {
    Login(email, password, LookupVia(tables, QueryCall(AdminLookupSql, [email])), RegisteredUsers(tables, email))
  }

  /** With the intended lookup, a client session always comes from a registered user's row. */
  lemma IntendedLoginOnlyRegistered(tables: Tables, email: Value, password: Value)
    ensures var d := LoginIntended(tables, email, password);
      d.response.body.Welcome? && d.response.body.rol == "cliente" ==>
        && "usuarios" in tables
        && exists u :: u in tables["usuarios"]
             && Satisfies(u, Eq("email", email)) && Satisfies(u, Eq("tipo", Str("registrado")))
             && Field(u, "password") == password && d.response.body.token.id == Field(u, "id")
  {
    var d := LoginIntended(tables, email, password);
    if d.response.body.Welcome? && d.response.body.rol == "cliente" {
      var fs := [Eq("email", email), Eq("tipo", Str("registrado"))];
      var rows := RunRead(tables["usuarios"], fs);
      var u := rows[0];
      assert u in rows;
      assert fs[0] == Eq("email", email) && fs[1] == Eq("tipo", Str("registrado"));
      assert SatisfiesAll(u, fs);
    }
  }

  /** With the intended lookup, the registered user of the same input logs in as client. */
  lemma ShadowedRegistrationAdmitted(tables: Tables, email: Value, password: Value, g: Row, u: Row)
    requires ShadowedRegistration(tables, email, password, g, u)
    ensures var d := LoginIntended(tables, email, password);
      && d.response.body.Welcome? && d.response.status == 200
      && d.response.body.rol == "cliente" && d.response.body.token.id == Field(u, "id")
  {
    NoAdminFound(tables, email);
    OnlyRegisteredFound(tables, email, password, g, u);
  }

  /** With no administrator under the email, the admin lookup finds no row. */
  lemma NoAdminFound(tables: Tables, email: Value)
    requires "administradores" in tables
    requires forall y :: y in tables["administradores"] ==> Field(y, "email") != email
    ensures LookupVia(tables, QueryCall(AdminLookupSql, [email])) == Rows([])
  {
    AdminLookupPlan(email);
    LookupViaRead(tables, QueryCall(AdminLookupSql, [email]), "administradores", [Eq("email", email)], None);
    ReadByEmailEmpty(tables["administradores"], email);
  }

  /** In the shadowing store the intended user lookup finds only the registered row. */
  lemma OnlyRegisteredFound(tables: Tables, email: Value, password: Value, g: Row, u: Row)
    requires ShadowedRegistration(tables, email, password, g, u)
    ensures RegisteredUsers(tables, email) == Rows([u])
  {
    var fs := [Eq("email", email), Eq("tipo", Str("registrado"))];
    assert !SatisfiesAll(g, fs) by {
      assert fs[1] == Eq("tipo", Str("registrado"));
    }
    assert SatisfiesAll(u, fs);
    ReadSkipsThenKeeps(g, u, fs);
  }

  /** A read of two rows where only the second passes the filters returns the second. */
  lemma ReadSkipsThenKeeps(g: Row, u: Row, fs: seq<Filter>)
    requires !SatisfiesAll(g, fs) && SatisfiesAll(u, fs)
    ensures RunRead([g, u], fs) == [u]
  {
    assert [g, u][0] == g && [g, u][1..] == [u];
    assert RunRead([g, u], fs) == RunRead([u], fs);
    assert [u][0] == u && [u][1..] == [];
    assert RunRead([u], fs) == [u] + RunRead([], fs);
  }

  // ---------------------------------------------------------------------------
  // Registration followed by login

  /**
   * The row the store keeps for a user insert with values `vs`, under the id it assigns.
   * An undefined value is not sent: its column is absent, except `tipo`, which takes the
   * column's default `tipoDefault` (the table's schema is not part of this model).
   */
  function StoredUser(vs: seq<Value>, id: Value, tipoDefault: Value): (u: Row)
    ensures "id" in u && u["id"] == id
    ensures forall k :: k != "id" && k != "tipo" ==> Field(u, k) == Field(BindColumns(InsertColumnNames, vs), k)
    ensures var t := Field(BindColumns(InsertColumnNames, vs), "tipo");
      Field(u, "tipo") == if t == Undefined then tipoDefault else t
  {
    Persisted(BindColumns(InsertColumnNames, vs), map["tipo" := tipoDefault])["id" := id]
  }

  /** A store whose only user is `u` and with no administrator under the email. */
  predicate OnlyUser(tables: Tables, email: Value, u: Row) {
    && "administradores" in tables && "usuarios" in tables
    && (forall y :: y in tables["administradores"] ==> Field(y, "email") != email)
    && tables["usuarios"] == [u]
  }

  /**
   * The row register stores as written has `tipo` at its column default. Unless that
   * default is `registrado`, the login as written admits it, while the intended login,
   * which asks for `registrado`, refuses it with 401.
   */
  lemma AsWrittenRegistrationLockedOut(tables: Tables, b: RegisterBody, id: Value, tipoDefault: Value)
    requires HasRequiredFields(b) && OnlyUser(tables, b.email, StoredUser(InsertValues(b), id, tipoDefault))
    requires tipoDefault != Str("registrado")
    ensures var d := LoginOn(tables, b.email, b.password);
      && d.response.status == 200 && d.response.body.Welcome?
      && d.response.body.rol == "cliente" && d.response.body.token.id == id
    ensures LoginIntended(tables, b.email, b.password).response == Response(401, Mensaje(BadCredentials))
  {
    var u := StoredUser(InsertValues(b), id, tipoDefault);
    AsWrittenRowLookups(tables, b, id, tipoDefault);
    LoginOnReadsByEmail(tables, b.email, b.password);
    ReadByEmailEmpty(tables["administradores"], b.email);
    NoAdminFound(tables, b.email);
    assert Field(u, "password") == b.password;
  }

  /** The as-written row is found by the email lookup and missed by the registered-user lookup. */
  lemma AsWrittenRowLookups(tables: Tables, b: RegisterBody, id: Value, tipoDefault: Value)
    requires HasRequiredFields(b) && OnlyUser(tables, b.email, StoredUser(InsertValues(b), id, tipoDefault))
    requires tipoDefault != Str("registrado")
    ensures var u := StoredUser(InsertValues(b), id, tipoDefault);
      && Field(u, "password") == b.password
      && RunRead(tables["usuarios"], [Eq("email", b.email)]) == [u]
      && RegisteredUsers(tables, b.email) == Rows([])
  {
    var u := StoredUser(InsertValues(b), id, tipoDefault);
    AsWrittenRowFields(b, id, tipoDefault);
    var fs := [Eq("email", b.email)];
    assert SatisfiesAll(u, fs);
    ReadOne(u, fs);
    var gs := [Eq("email", b.email), Eq("tipo", Str("registrado"))];
    assert !SatisfiesAll(u, gs) by {
      assert gs[1] == Eq("tipo", Str("registrado"));
    }
    ReadOne(u, gs);
  }

  /**
   * If the `tipo` column defaults to `registrado`, the row register stores as written is
   * found by the intended login, which admits the user as client.
   */
  lemma RegistradoDefaultAdmits(tables: Tables, b: RegisterBody, id: Value)
    requires HasRequiredFields(b) && OnlyUser(tables, b.email, StoredUser(InsertValues(b), id, Str("registrado")))
    ensures var d := LoginIntended(tables, b.email, b.password);
      && d.response.status == 200 && d.response.body.Welcome?
      && d.response.body.rol == "cliente" && d.response.body.token.id == id
  {
    var u := StoredUser(InsertValues(b), id, Str("registrado"));
    RegistradoDefaultFound(tables, b, id);
    NoAdminFound(tables, b.email);
    assert Field(u, "password") == b.password;
  }

  /** With `tipo` defaulting to `registrado`, the intended user lookup finds the as-written row. */
  lemma RegistradoDefaultFound(tables: Tables, b: RegisterBody, id: Value)
    requires HasRequiredFields(b) && OnlyUser(tables, b.email, StoredUser(InsertValues(b), id, Str("registrado")))
    ensures var u := StoredUser(InsertValues(b), id, Str("registrado"));
      && Field(u, "password") == b.password
      && RegisteredUsers(tables, b.email) == Rows([u])
  {
    var u := StoredUser(InsertValues(b), id, Str("registrado"));
    AsWrittenRowFields(b, id, Str("registrado"));
    var gs := [Eq("email", b.email), Eq("tipo", Str("registrado"))];
    assert SatisfiesAll(u, gs) by {
      assert gs[0] == Eq("email", b.email) && gs[1] == Eq("tipo", Str("registrado"));
    }
    ReadOne(u, gs);
  }

  /** The as-written row holds the body's email and password, and `tipo` at its column default. */
  lemma AsWrittenRowFields(b: RegisterBody, id: Value, tipoDefault: Value)
    ensures var u := StoredUser(InsertValues(b), id, tipoDefault);
      && Field(u, "email") == b.email && Field(u, "password") == b.password
      && Field(u, "tipo") == tipoDefault
  {
    var row := BindColumns(InsertColumnNames, InsertValues(b));
    InsertRowBinding(InsertValues(b));
    assert Field(row, "email") == b.email && Field(row, "password") == b.password;
    assert Field(row, "tipo") == Undefined;
  }

  /** A read of a single row returns it exactly when it passes the filters. */
  lemma ReadOne(u: Row, fs: seq<Filter>)
    ensures RunRead([u], fs) == if SatisfiesAll(u, fs) then [u] else []
  {
    assert [u][0] == u && [u][1..] == [];
  }

  /**
   * The values of the user insert with the `'registrado'` literal of its VALUES list bound
   * as the eighth parameter, which the shim's positional binding drops.
   */
  function InsertValuesIntended(b: RegisterBody): (vs: seq<Value>)
    ensures |vs| == |InsertColumnNames|
    ensures vs[..7] == InsertValues(b) && vs[7] == Str("registrado")
  {
    InsertValues(b) + [Str("registrado")]
  }

  /** With the literal bound, the inserted row is a registered user with the body's credentials. */
  lemma IntendedInsertRowTyped(b: RegisterBody)
    ensures var row := BindColumns(InsertColumnNames, InsertValuesIntended(b));
      && Field(row, "tipo") == Str("registrado")
      && Field(row, "email") == b.email && Field(row, "password") == b.password
      && Field(row, "nombre") == b.nombre
  {
    var names := InsertColumnNames;
    var vs := InsertValuesIntended(b);
    InsertColumnNamesDistinct();
    BindColumnsPositional(names, vs, 1);
    BindColumnsPositional(names, vs, 3);
    BindColumnsPositional(names, vs, 4);
    BindColumnsPositional(names, vs, 7);
  }

  /**
   * With the literal bound, a user just registered logs in under the intended lookup with
   * the same email and password, as a client carrying the id the store assigned.
   */
  lemma IntendedRegistrationLogsIn(tables: Tables, b: RegisterBody, id: Value, tipoDefault: Value)
    requires HasRequiredFields(b) && OnlyUser(tables, b.email, StoredUser(InsertValuesIntended(b), id, tipoDefault))
    ensures var d := LoginIntended(tables, b.email, b.password);
      && d.response.status == 200 && d.response.body.Welcome?
      && d.response.body.rol == "cliente" && d.response.body.token.id == id
      && d.response.body.nombre == Some(b.nombre)
  {
    var u := StoredUser(InsertValuesIntended(b), id, tipoDefault);
    IntendedRowFound(tables, b, id, tipoDefault);
    NoAdminFound(tables, b.email);
    assert Field(u, "password") == b.password && Field(u, "nombre") == b.nombre;
  }

  /** The intended row is the one the registered-user lookup finds. */
  lemma IntendedRowFound(tables: Tables, b: RegisterBody, id: Value, tipoDefault: Value)
    requires HasRequiredFields(b) && OnlyUser(tables, b.email, StoredUser(InsertValuesIntended(b), id, tipoDefault))
    ensures var u := StoredUser(InsertValuesIntended(b), id, tipoDefault);
      && Field(u, "password") == b.password && Field(u, "nombre") == b.nombre
      && RegisteredUsers(tables, b.email) == Rows([u])
  {
    var u := StoredUser(InsertValuesIntended(b), id, tipoDefault);
    IntendedInsertRowTyped(b);
    assert Field(u, "email") == b.email && Field(u, "tipo") == Str("registrado");
    var gs := [Eq("email", b.email), Eq("tipo", Str("registrado"))];
    assert SatisfiesAll(u, gs) by {
      assert gs[0] == Eq("email", b.email) && gs[1] == Eq("tipo", Str("registrado"));
    }
    ReadOne(u, gs);
  }
}

=== FILE: cart.dfy ===
/**
 * The shopping cart of the storefront (`CarritoService`): an ordered sequence of
 * line items keyed by product id, with add-or-merge, set-quantity, remove and
 * clear, and two derived totals. Prices are integer cents.
 */
module Cart {
  import opened Wrappers

  /** What the catalog hands to `addItem`. */
  datatype Product = Product(id: int, nombre: string, precio: int, imagenUrl: Option<string>, stock: Option<int>)

  /** One line of the cart. */
  datatype CartItem = CartItem(id: int, nombre: string, precio: int, cantidad: int, imagenUrl: Option<string>, stock: Option<int>)

  type Cart = seq<CartItem>

  /** The invariant the operations keep: no two lines share a product id. */
  ghost predicate UniqueIds(cart: Cart) {
    forall i, j :: 0 <= i < j < |cart| ==> cart[i].id != cart[j].id
  }

  predicate HasId(cart: Cart, id: int) {
    exists i :: 0 <= i < |cart| && cart[i].id == id
  }

  /** `items.find(item => item.id === id)`, as the index of the first match. */
  function FindIndex(cart: Cart, id: int): (k: Option<nat>)
    ensures k.Some? ==> k.value < |cart| && cart[k.value].id == id
    ensures k.Some? ==> forall j :: 0 <= j < k.value ==> cart[j].id != id
    ensures k.None? <==> !HasId(cart, id)
  {
    if |cart| == 0 then None
    else if cart[0].id == id then Some(0)
    else
      match FindIndex(cart[1..], id)
      case None => assert forall i :: 1 <= i < |cart| ==> cart[1..][i - 1] == cart[i]; None
      case Some(k) => Some(k + 1)
  }

  /** The line `addItem` creates for a product not yet in the cart. */
  function NewLine(p: Product, cantidad: int): CartItem {
    CartItem(p.id, p.nombre, p.precio, cantidad, p.imagenUrl, p.stock)
  }

  /**
   * `addItem(producto, cantidad)`: merge into the first line with the product's id,
   * or append a new line. The source's default quantity is AddOne.
   */
  function AddItem(cart: Cart, p: Product, cantidad: int): (r: Cart)
    ensures HasId(r, p.id)
  {
    match FindIndex(cart, p.id)
    case Some(k) =>
      var r := cart[k := cart[k].(cantidad := cart[k].cantidad + cantidad)];
      assert r[k].id == p.id;
      r
    case None =>
      var r := cart + [NewLine(p, cantidad)];
      assert r[|cart|].id == p.id;
      r
  }

  /** `addItem(producto)` with the default quantity of one. */
  function AddOne(cart: Cart, p: Product): Cart {
    AddItem(cart, p, 1)
  }

  /** `removeItem(id)`: keep exactly the lines whose id differs, in order. */
  function RemoveItem(cart: Cart, id: int): (r: Cart)
    ensures |r| <= |cart|
  {
    if |cart| == 0 then []
    else if cart[0].id == id then RemoveItem(cart[1..], id)
    else [cart[0]] + RemoveItem(cart[1..], id)
  }

  /**
   * `updateQuantity(id, cantidad)`: unknown id does nothing; a quantity of zero or
   * less removes the product; otherwise the first matching line gets the new quantity.
   */
  function UpdateQuantity(cart: Cart, id: int, cantidad: int): (r: Cart)
    ensures |r| <= |cart|
    ensures cantidad > 0 ==> |r| == |cart|
    ensures !HasId(cart, id) ==> r == cart
  {
    match FindIndex(cart, id)
    case None => cart
    case Some(k) =>
      if cantidad <= 0 then RemoveItem(cart, id)
      else cart[k := cart[k].(cantidad := cantidad)]
  }

  /** `clear()`: nothing is left to count or pay. */
  function Clear(): (r: Cart)
    ensures TotalItems(r) == 0 && TotalPrice(r) == 0
    ensures forall id :: !HasId(r, id)
  {
    []
  }

  /** `totalItems`: the sum of the quantities. */
  function TotalItems(cart: Cart): (n: int)
    ensures (forall i :: 0 <= i < |cart| ==> cart[i].cantidad > 0) ==> n >= |cart|
  {
    if |cart| == 0 then 0 else cart[0].cantidad + TotalItems(cart[1..])
  }

  /** `totalPrice`: the sum of `precio * cantidad` over the lines. */
  function TotalPrice(cart: Cart): (n: int)
    ensures (forall i :: 0 <= i < |cart| ==> cart[i].precio >= 0 && cart[i].cantidad >= 0) ==> n >= 0
  {
    if |cart| == 0 then 0 else cart[0].precio * cart[0].cantidad + TotalPrice(cart[1..])
  }

  // ---------------------------------------------------------------------------
  // Totals over concatenation and point updates.

  lemma {:induction false} TotalsAppend(a: Cart, b: Cart)
    ensures TotalItems(a + b) == TotalItems(a) + TotalItems(b)
    ensures TotalPrice(a + b) == TotalPrice(a) + TotalPrice(b)
  {
    if |a| == 0 {
      assert a + b == b;
    } else {
      assert (a + b)[1..] == a[1..] + b;
      TotalsAppend(a[1..], b);
    }
  }

  lemma TotalsUpdateAt(cart: Cart, k: nat, x: CartItem)
    requires k < |cart|
    ensures TotalItems(cart[k := x]) == TotalItems(cart) - cart[k].cantidad + x.cantidad
    ensures TotalPrice(cart[k := x]) == TotalPrice(cart) - cart[k].precio * cart[k].cantidad + x.precio * x.cantidad
  {
    var pre, post := cart[..k], cart[k + 1..];
    assert cart == pre + [cart[k]] + post;
    assert cart[k := x] == pre + [x] + post;
    TotalsAppend(pre + [cart[k]], post);
    TotalsAppend(pre, [cart[k]]);
    TotalsAppend(pre + [x], post);
    TotalsAppend(pre, [x]);
  }

  // ---------------------------------------------------------------------------
  // addItem

  /** Adding a product already in the cart adds to that line only: same length, same order. */
  lemma AddExistingMerges(cart: Cart, p: Product, cantidad: int, k: nat)
    requires k < |cart| && cart[k].id == p.id
    requires forall j :: 0 <= j < k ==> cart[j].id != p.id
    ensures var r := AddItem(cart, p, cantidad);
      && |r| == |cart|
      && r[k] == cart[k].(cantidad := cart[k].cantidad + cantidad)
      && forall j :: 0 <= j < |cart| && j != k ==> r[j] == cart[j]
  {
    assert FindIndex(cart, p.id) == Some(k);
  }

  /** Adding a new product appends exactly one line built from the product and the quantity. */
  lemma AddNewAppends(cart: Cart, p: Product, cantidad: int)
    requires !HasId(cart, p.id)
    ensures AddItem(cart, p, cantidad) == cart + [CartItem(p.id, p.nombre, p.precio, cantidad, p.imagenUrl, p.stock)]
  {
  }

  /** With the default quantity a new product arrives with quantity one. */
  lemma AddOneNewHasQuantityOne(cart: Cart, p: Product)
    requires !HasId(cart, p.id)
    ensures var r := AddOne(cart, p); |r| == |cart| + 1 && r[|cart|].cantidad == 1 && r[|cart|].id == p.id
  {
  }

  /** addItem keeps ids unique. */
  lemma AddKeepsUniqueIds(cart: Cart, p: Product, cantidad: int)
    requires UniqueIds(cart)
    ensures UniqueIds(AddItem(cart, p, cantidad))
  {
  }

  /** addItem raises the item count by exactly the quantity added. */
  lemma AddRaisesTotalItems(cart: Cart, p: Product, cantidad: int)
    ensures TotalItems(AddItem(cart, p, cantidad)) == TotalItems(cart) + cantidad
  {
    match FindIndex(cart, p.id)
    case Some(k) =>
      TotalsUpdateAt(cart, k, cart[k].(cantidad := cart[k].cantidad + cantidad));
    case None =>
      TotalsAppend(cart, [NewLine(p, cantidad)]);
  }

  /**
   * addItem raises the price total by the quantity times the price of the line that
   * received it: the stored line's price when merging (not the product's current one),
   * the product's price when appending.
   */
  lemma AddRaisesTotalPrice(cart: Cart, p: Product, cantidad: int)
    ensures FindIndex(cart, p.id).Some? ==>
      TotalPrice(AddItem(cart, p, cantidad)) == TotalPrice(cart) + cart[FindIndex(cart, p.id).value].precio * cantidad
    ensures FindIndex(cart, p.id).None? ==>
      TotalPrice(AddItem(cart, p, cantidad)) == TotalPrice(cart) + p.precio * cantidad
  {
    match FindIndex(cart, p.id)
    case Some(k) =>
      MergeRaisesTotalPrice(cart, k, cantidad);
    case None =>
      TotalsAppend(cart, [NewLine(p, cantidad)]);
  }

  /** Raising the quantity of line `k` raises the price total by that line's price times the amount. */
  lemma MergeRaisesTotalPrice(cart: Cart, k: nat, cantidad: int)
    requires k < |cart|
    ensures TotalPrice(cart[k := cart[k].(cantidad := cart[k].cantidad + cantidad)]) ==
      TotalPrice(cart) + cart[k].precio * cantidad
  {
    var x := cart[k].(cantidad := cart[k].cantidad + cantidad);
    TotalsUpdateAt(cart, k, x);
    Distribute(cart[k].precio, cart[k].cantidad, cantidad);
  }

  lemma Distribute(pr: int, q: int, c: int)
    ensures pr * (q + c) == pr * q + pr * c
  {
  }

  // ---------------------------------------------------------------------------
  // removeItem

  /** removeItem drops every line with the id and keeps every other line. */
  lemma {:induction false} RemoveItemContents(cart: Cart, id: int)
    ensures !HasId(RemoveItem(cart, id), id)
    ensures forall x :: x in RemoveItem(cart, id) <==> x in cart && x.id != id
  {
    if |cart| > 0 {
      RemoveItemContents(cart[1..], id);
      assert cart == [cart[0]] + cart[1..];
    }
  }

  /** removeItem keeps the relative order: it distributes over concatenation. */
  lemma {:induction false} RemoveItemAppend(a: Cart, b: Cart, id: int)
    ensures RemoveItem(a + b, id) == RemoveItem(a, id) + RemoveItem(b, id)
  {
    if |a| == 0 {
      assert a + b == b;
    } else {
      assert (a + b)[1..] == a[1..] + b;
      RemoveItemAppend(a[1..], b, id);
    }
  }

  /** Removing an id that is not in the cart leaves the cart unchanged. */
  lemma {:induction false} RemoveAbsentIsIdentity(cart: Cart, id: int)
    requires !HasId(cart, id)
    ensures RemoveItem(cart, id) == cart
  {
    if |cart| > 0 {
      assert !HasId(cart[1..], id) by {
        forall i | 0 <= i < |cart[1..]| ensures cart[1..][i].id != id {
          assert cart[1..][i] == cart[i + 1];
        }
      }
      RemoveAbsentIsIdentity(cart[1..], id);
      assert [cart[0]] + cart[1..] == cart;
    }
  }

  lemma NotHasIdSlice(cart: Cart, lo: nat, hi: nat, id: int)
    requires lo <= hi <= |cart|
    requires forall i :: lo <= i < hi ==> cart[i].id != id
    ensures !HasId(cart[lo..hi], id)
  {
  }

  /** Removing the id of a line that occurs nowhere else cuts exactly that line out. */
  lemma RemoveCutsOut(a: Cart, x: CartItem, b: Cart)
    requires !HasId(a, x.id) && !HasId(b, x.id)
    ensures RemoveItem(a + [x] + b, x.id) == a + b
  {
    RemoveItemAppend(a + [x], b, x.id);
    RemoveItemAppend(a, [x], x.id);
    RemoveAbsentIsIdentity(a, x.id);
    RemoveAbsentIsIdentity(b, x.id);
    assert RemoveItem([x], x.id) == [];
  }

  /** With unique ids, the line at k is the only one carrying its id. */
  lemma UniqueAround(cart: Cart, k: nat)
    requires UniqueIds(cart) && k < |cart|
    ensures cart == cart[..k] + [cart[k]] + cart[k + 1..]
    ensures !HasId(cart[..k], cart[k].id) && !HasId(cart[k + 1..], cart[k].id)
  {
    NotHasIdSlice(cart, 0, k, cart[k].id);
    NotHasIdSlice(cart, k + 1, |cart|, cart[k].id);
    assert cart[0..k] == cart[..k];
  }

  /** In a cart with unique ids, removing the line at k is cutting it out. */
  lemma RemoveUniqueCutsOut(cart: Cart, k: nat)
    requires UniqueIds(cart) && k < |cart|
    ensures RemoveItem(cart, cart[k].id) == cart[..k] + cart[k + 1..]
  {
    UniqueAround(cart, k);
    RemoveCutsOut(cart[..k], cart[k], cart[k + 1..]);
  }

  /** removeItem keeps ids unique. */
  lemma RemoveKeepsUniqueIds(cart: Cart, id: int)
    requires UniqueIds(cart)
    ensures UniqueIds(RemoveItem(cart, id))
  {
    if HasId(cart, id) {
      var k := FindIndex(cart, id).value;
      RemoveUniqueCutsOut(cart, k);
    } else {
      RemoveAbsentIsIdentity(cart, id);
    }
  }

  /** Cutting a line out of a cart lowers the totals by that line's share. */
  lemma TotalsCutOut(a: Cart, x: CartItem, b: Cart)
    ensures TotalItems(a + [x] + b) == TotalItems(a + b) + x.cantidad
    ensures TotalPrice(a + [x] + b) == TotalPrice(a + b) + x.precio * x.cantidad
  {
    TotalsAppend(a + [x], b);
    TotalsAppend(a, [x]);
    TotalsAppend(a, b);
  }

  /** In a cart with unique ids, removing a present product lowers the item count by its quantity. */
  lemma RemoveLowersTotalItems(cart: Cart, k: nat)
    requires UniqueIds(cart) && k < |cart|
    ensures TotalItems(RemoveItem(cart, cart[k].id)) == TotalItems(cart) - cart[k].cantidad
    ensures TotalPrice(RemoveItem(cart, cart[k].id)) == TotalPrice(cart) - cart[k].precio * cart[k].cantidad
  {
    UniqueAround(cart, k);
    RemoveCutsOut(cart[..k], cart[k], cart[k + 1..]);
    TotalsCutOut(cart[..k], cart[k], cart[k + 1..]);
  }

  // ---------------------------------------------------------------------------
  // updateQuantity

  /** A quantity of zero or less is exactly removeItem. */
  lemma UpdateNonPositiveIsRemove(cart: Cart, id: int, cantidad: int)
    requires cantidad <= 0
    ensures UpdateQuantity(cart, id, cantidad) == RemoveItem(cart, id)
  {
    if !HasId(cart, id) {
      RemoveAbsentIsIdentity(cart, id);
    }
  }

  /** An unknown id is a no-op whatever the quantity. */
  lemma UpdateUnknownIsNoOp(cart: Cart, id: int, cantidad: int)
    requires !HasId(cart, id)
    ensures UpdateQuantity(cart, id, cantidad) == cart
  {
  }

  /** A positive quantity sets that line's quantity and changes nothing else. */
  lemma UpdatePositiveSetsQuantity(cart: Cart, k: nat, cantidad: int)
    requires UniqueIds(cart) && k < |cart| && cantidad > 0
    ensures var r := UpdateQuantity(cart, cart[k].id, cantidad);
      && |r| == |cart|
      && r[k] == cart[k].(cantidad := cantidad)
      && forall j :: 0 <= j < |cart| && j != k ==> r[j] == cart[j]
  {
    assert FindIndex(cart, cart[k].id) == Some(k);
  }

  /** updateQuantity keeps ids unique. */
  lemma UpdateKeepsUniqueIds(cart: Cart, id: int, cantidad: int)
    requires UniqueIds(cart)
    ensures UniqueIds(UpdateQuantity(cart, id, cantidad))
  {
    if cantidad <= 0 && HasId(cart, id) {
      RemoveKeepsUniqueIds(cart, id);
    }
  }

  // ---------------------------------------------------------------------------
  // clear

  /** After clear the cart is empty and both totals are zero. */
  lemma ClearZeroesTotals()
    ensures |Clear()| == 0 && TotalItems(Clear()) == 0 && TotalPrice(Clear()) == 0
  {
  }
}

=== FILE: checkout.dfy ===
/**
 * The checkout page (`CheckoutComponent`): validating the delivery form, building the
 * order request from the cart, the success and error transitions of the request, and
 * the voucher derived from the kept snapshot.
 *
 * The HTTP request is replaced by its outcome and the browser storage by the stored
 * email; amounts are integer cents, as in the cart.
 */
module Checkout {
  import opened Wrappers
  import opened Values
  import Cart

  /** The form fields bound to the page. */
  datatype Form = Form(
    nombre: string, direccion: string, telefono: string,
    metodoPago: string, numeroOperacion: string, comprobanteUrl: string)

  /** The customer part of the order request. */
  datatype Cliente = Cliente(nombre: string, email: Option<string>, telefono: string, direccion: string)

  /** One line of the order request. */
  datatype OrderLine = OrderLine(productoId: int, nombre: string, cantidad: int, precio: int)

  /** The body posted to the orders endpoint. */
  datatype Order = Order(
    cliente: Cliente, items: seq<OrderLine>, total: int,
    metodoPago: string, numeroOperacion: string, comprobanteUrl: string)

  /** The fields of the server's success answer the page reads. */
  datatype Reply = Reply(mensaje: Value, codigoSeguimiento: Value, pedidoId: Value)

  /** The page's state, with the cart the cart service holds. */
  datatype Page = Page(
    form: Form, cart: Cart.Cart,
    mensajeExito: string, mensajeError: string, isProcessing: bool,
    orderResult: Option<Reply>, orderSnapshot: Option<Order>)

  /** What submitting does: the new state and the request sent, if any. */
  datatype Submission = Submission(page: Page, request: Option<Order>)

  const FieldsMissing: string := "Complete todos los campos obligatorios."
  const OperationMissing: string := "Ingrese el número de operación de Yape"
  const CartEmpty: string := "El carrito está vacío."
  const PurchaseDone: string := "Compra realizada correctamente."
  const PaymentFailed: string := "Error al procesar el pago."

  /**
   * A fresh page over the current cart: empty form, payment by `yape`. It cannot be
   * submitted until the customer fills in the form.
   */
  function Initial(cart: Cart.Cart): (p: Page)
    ensures Problem(p.form, cart) == Some(FieldsMissing)
    ensures p.form.metodoPago == "yape" && p.cart == cart
    ensures p.orderResult.None? && p.orderSnapshot.None? && !p.isProcessing
  {
    Page(Form("", "", "", "yape", "", ""), cart, "", "", false, None, None)
  }

  /** The first failed check of `onSubmitPago`, or None when the order may be sent. */
  function Problem(f: Form, cart: Cart.Cart): (r: Option<string>)
    ensures r.Some? ==> r.value == FieldsMissing || r.value == OperationMissing || r.value == CartEmpty
    ensures |cart| == 0 ==> r.Some?
    ensures r.None? ==> f.nombre != "" && f.direccion != "" && f.telefono != ""
  {
    if f.nombre == "" || f.direccion == "" || f.telefono == "" then Some(FieldsMissing)
    else if f.metodoPago == "yape" && f.numeroOperacion == "" then Some(OperationMissing)
    else if |cart| == 0 then Some(CartEmpty)
    else None
  }

  /** `localStorage.getItem('email') || null`. */
  function EmailOf(stored: Option<string>): Option<string> {
    if stored.Some? && stored.value != "" then stored else None
  }

  /** The request line for one cart line; a nameless product is called `Producto`. */
  function OrderLineOf(item: Cart.CartItem): OrderLine {
    OrderLine(item.id, if item.nombre == "" then "Producto" else item.nombre, item.cantidad, item.precio)
  }

  /** `cart.items.map(...)`. */
  function Lines(cart: Cart.Cart): (r: seq<OrderLine>)
    ensures |r| == |cart|
  {
    if |cart| == 0 then [] else [OrderLineOf(cart[0])] + Lines(cart[1..])
  }

  /** The order request built from the form, the cart and the stored email. */
  function BuildOrder(f: Form, cart: Cart.Cart, stored: Option<string>): (o: Order)
    ensures |o.items| == |cart|
    ensures o.cliente.email.Some? ==> o.cliente.email.value != ""
  {
    Order(Cliente(f.nombre, EmailOf(stored), f.telefono, f.direccion), Lines(cart),
          Cart.TotalPrice(cart), f.metodoPago, f.numeroOperacion, f.comprobanteUrl)
  }

  /**
   * `onSubmitPago`: a failed check only sets the error message; otherwise the page is
   * marked as processing, the error is cleared and the order is sent.
   */
  function Submit(p: Page, stored: Option<string>): (r: Submission)
    ensures r.page.cart == p.cart && r.page.form == p.form
  {
    match Problem(p.form, p.cart)
    case Some(m) => Submission(p.(mensajeError := m), None)
    case None =>
      Submission(p.(isProcessing := true, mensajeError := ""), Some(BuildOrder(p.form, p.cart, stored)))
  }

  /** The success handler: keep the answer and the order, clear the cart. */
  function OnSuccess(p: Page, sent: Order, reply: Reply): (r: Page)
    ensures |r.cart| == 0 && r.form == p.form && !r.isProcessing
    ensures VoucherTotal(r.orderSnapshot) == sent.total && VoucherRows(r.orderSnapshot) == RowsOf(sent.items)
  {
    p.(mensajeExito := Display(Or(reply.mensaje, Str(PurchaseDone))),
       orderResult := Some(reply), orderSnapshot := Some(sent),
       cart := Cart.Clear(), isProcessing := false)
  }

  /** The error handler; `mensaje` is what `err?.error?.mensaje` reads. */
  function OnError(p: Page, mensaje: Value): (r: Page)
    ensures r.cart == p.cart && r.orderSnapshot == p.orderSnapshot && r.orderResult == p.orderResult
    ensures !r.isProcessing
  {
    p.(isProcessing := false, mensajeError := Display(Or(mensaje, Str(PaymentFailed))))
  }

  // ---------------------------------------------------------------------------
  // The voucher

  /** One row of the voucher table. */
  datatype VoucherRow = VoucherRow(nombre: string, cantidad: int, precio: int, subtotal: int)

  function LineSubtotal(l: OrderLine): int {
    l.precio * l.cantidad
  }

  function RowOf(l: OrderLine): VoucherRow {
    VoucherRow(if l.nombre == "" then "Producto" else l.nombre, l.cantidad, l.precio, LineSubtotal(l))
  }

  function RowsOf(lines: seq<OrderLine>): (r: seq<VoucherRow>)
    ensures |r| == |lines|
  {
    if |lines| == 0 then [] else [RowOf(lines[0])] + RowsOf(lines[1..])
  }

  /** The voucher rows of the snapshot (none without a snapshot). */
  function VoucherRows(snapshot: Option<Order>): seq<VoucherRow> {
    if snapshot.None? then [] else RowsOf(snapshot.value.items)
  }

  /** The total printed on the voucher: `snap.total || 0`. */
  function VoucherTotal(snapshot: Option<Order>): int {
    if snapshot.None? then 0 else snapshot.value.total
  }

  function SumSubtotals(rows: seq<VoucherRow>): int {
    if |rows| == 0 then 0 else rows[0].subtotal + SumSubtotals(rows[1..])
  }

  /** The two ids of the answer, as `orderResult?.x` reads them. */
  function TrackingCode(result: Option<Reply>): Value {
    if result.None? then Undefined else result.value.codigoSeguimiento
  }

  function OrderId(result: Option<Reply>): Value {
    if result.None? then Undefined else result.value.pedidoId
  }

  /** The order code on the voucher: tracking code, then order id, then nothing. */
  function VoucherCode(result: Option<Reply>): (c: string)
    ensures c != "" ==> Truthy(TrackingCode(result)) || Truthy(OrderId(result))
    ensures result.None? ==> c == ""
  {
    Display(Or(Or(TrackingCode(result), OrderId(result)), Str("")))
  }

  /** The code in the downloaded file's name: the same fall-back, ending in `pedido`. */
  function DownloadCode(result: Option<Reply>): string {
    Display(Or(Or(TrackingCode(result), OrderId(result)), Str("pedido")))
  }

  function PdfName(result: Option<Reply>): string {
    "comprobante_" + DownloadCode(result) + ".pdf"
  }

  /** The name of the HTML file downloaded when the PDF cannot be produced. */
  function HtmlName(result: Option<Reply>): string {
    "comprobante_" + DownloadCode(result) + ".html"
  }

  // ---------------------------------------------------------------------------
  // Validation

  /**
   * Filling in name, address, phone and the Yape operation number is all a fresh page
   * needs: it may then be submitted exactly when the cart is not empty.
   */
  lemma InitialPageFilledIn(cart: Cart.Cart, nombre: string, direccion: string, telefono: string, numero: string)
    requires nombre != "" && direccion != "" && telefono != "" && numero != ""
    ensures var f := Initial(cart).form.(nombre := nombre, direccion := direccion, telefono := telefono, numeroOperacion := numero);
      && Problem(f, cart) == (if |cart| == 0 then Some(CartEmpty) else None)
      && Submit(Initial(cart).(form := f), None).request.Some? == (|cart| > 0)
  {
  }

  /** Missing delivery data is reported first, whatever the payment and the cart. */
  lemma FieldsCheckedFirst(f: Form, cart: Cart.Cart)
    requires f.nombre == "" || f.direccion == "" || f.telefono == ""
    ensures Problem(f, cart) == Some(FieldsMissing)
  {
  }

  /** With the delivery data present, `yape` without an operation number is reported next. */
  lemma OperationCheckedSecond(f: Form, cart: Cart.Cart)
    requires f.nombre != "" && f.direccion != "" && f.telefono != ""
    requires f.metodoPago == "yape" && f.numeroOperacion == ""
    ensures Problem(f, cart) == Some(OperationMissing)
  {
  }

  /** The empty cart is reported only when the form passes. */
  lemma CartCheckedLast(f: Form, cart: Cart.Cart)
    requires f.nombre != "" && f.direccion != "" && f.telefono != ""
    requires f.metodoPago != "yape" || f.numeroOperacion != ""
    ensures Problem(f, cart) == (if |cart| == 0 then Some(CartEmpty) else None)
  {
  }

  /** The checks pass exactly when all three delivery fields, the operation number for `yape` and a line are present. */
  lemma ProblemNoneIff(f: Form, cart: Cart.Cart)
    ensures Problem(f, cart).None? <==>
      f.nombre != "" && f.direccion != "" && f.telefono != ""
      && (f.metodoPago == "yape" ==> f.numeroOperacion != "")
      && |cart| > 0
  {
  }

  /** Only `yape` needs the operation number: for other methods it does not affect the checks. */
  lemma OperationIrrelevantOtherwise(f: Form, cart: Cart.Cart, numero: string)
    requires f.metodoPago != "yape"
    ensures Problem(f.(numeroOperacion := numero), cart) == Problem(f, cart)
  {
  }

  /** A failed check sends nothing and changes only the error message. */
  lemma SubmitRejected(p: Page, stored: Option<string>)
    requires Problem(p.form, p.cart).Some?
    ensures var r := Submit(p, stored);
      r.request.None? && r.page == p.(mensajeError := Problem(p.form, p.cart).value)
  {
  }

  /** Passing the checks sends the order built from the form and the cart, and marks the page busy. */
  lemma SubmitSends(p: Page, stored: Option<string>)
    requires Problem(p.form, p.cart).None?
    ensures var r := Submit(p, stored);
      && r.request == Some(BuildOrder(p.form, p.cart, stored))
      && r.page.isProcessing && r.page.mensajeError == ""
      && r.page.mensajeExito == p.mensajeExito
      && r.page.orderResult == p.orderResult && r.page.orderSnapshot == p.orderSnapshot
  {
  }

  // ---------------------------------------------------------------------------
  // The order request

  /** The request lines correspond one to one, in order, to the cart lines. */
  lemma {:induction false} LinesCorrespond(cart: Cart.Cart)
    ensures |Lines(cart)| == |cart|
    ensures forall i :: 0 <= i < |cart| ==>
      && Lines(cart)[i].productoId == cart[i].id
      && Lines(cart)[i].cantidad == cart[i].cantidad
      && Lines(cart)[i].precio == cart[i].precio
      && Lines(cart)[i].nombre == (if cart[i].nombre == "" then "Producto" else cart[i].nombre)
  {
    if |cart| > 0 {
      LinesCorrespond(cart[1..]);
      assert forall i :: 1 <= i < |cart| ==> Lines(cart)[i] == Lines(cart[1..])[i - 1];
    }
  }

  /** Every request line names its product. */
  lemma LinesNamed(cart: Cart.Cart)
    ensures forall i :: 0 <= i < |Lines(cart)| ==> Lines(cart)[i].nombre != ""
  {
    LinesCorrespond(cart);
  }

  /** The voucher rows' subtotals add up to the cart's total price. */
  lemma {:induction false} SubtotalsAddUp(cart: Cart.Cart)
    ensures SumSubtotals(RowsOf(Lines(cart))) == Cart.TotalPrice(cart)
  {
    if |cart| > 0 {
      SubtotalsAddUp(cart[1..]);
      assert Lines(cart)[1..] == Lines(cart[1..]);
      assert RowsOf(Lines(cart))[1..] == RowsOf(Lines(cart[1..]));
    }
  }

  /** The request carries the form, the stored email only when non-empty, and the cart's total. */
  lemma OrderReflectsForm(f: Form, cart: Cart.Cart, stored: Option<string>)
    ensures var o := BuildOrder(f, cart, stored);
      && o.cliente.nombre == f.nombre && o.cliente.telefono == f.telefono && o.cliente.direccion == f.direccion
      && (o.cliente.email.Some? <==> stored.Some? && stored.value != "")
      && (o.cliente.email.Some? ==> o.cliente.email == stored)
      && o.total == Cart.TotalPrice(cart)
      && o.total == SumSubtotals(RowsOf(o.items))
      && o.metodoPago == f.metodoPago && o.numeroOperacion == f.numeroOperacion
  {
    SubtotalsAddUp(cart);
  }

  // ---------------------------------------------------------------------------
  // Answers

  /**
   * On success the cart is emptied, the order sent is kept as the snapshot, the answer
   * is kept and the page is no longer busy; the form and the error message stay.
   */
  lemma SuccessClearsCart(p: Page, sent: Order, reply: Reply)
    ensures var q := OnSuccess(p, sent, reply);
      && q.cart == [] && Cart.TotalItems(q.cart) == 0 && Cart.TotalPrice(q.cart) == 0
      && q.orderSnapshot == Some(sent) && q.orderResult == Some(reply)
      && !q.isProcessing
      && q.mensajeExito == (if Truthy(reply.mensaje) then Display(reply.mensaje) else PurchaseDone)
      && q.mensajeExito != ""
      && q.form == p.form && q.mensajeError == p.mensajeError
  {
    if Truthy(reply.mensaje) {
      TruthyDisplaysNonEmpty(reply.mensaje);
    }
  }

  /** On error the cart, the snapshot and the answer are untouched; the message is the server's or the default. */
  lemma ErrorKeepsCart(p: Page, mensaje: Value)
    ensures var q := OnError(p, mensaje);
      && q.cart == p.cart && q.orderSnapshot == p.orderSnapshot && q.orderResult == p.orderResult
      && !q.isProcessing && q.mensajeExito == p.mensajeExito
      && q.mensajeError == (if Truthy(mensaje) then Display(mensaje) else PaymentFailed)
      && q.mensajeError != ""
  {
    if Truthy(mensaje) {
      TruthyDisplaysNonEmpty(mensaje);
    }
  }

  /**
   * A whole successful checkout: the voucher lists the former cart's lines in order, with
   * subtotal `precio * cantidad`, and its total is the former cart's total price.
   */
  lemma VoucherOfSuccessfulCheckout(p: Page, stored: Option<string>, reply: Reply)
    requires Problem(p.form, p.cart).None?
    ensures var r := Submit(p, stored);
      var q := OnSuccess(r.page, r.request.value, reply);
      && q.cart == []
      && |VoucherRows(q.orderSnapshot)| == |p.cart|
      && (forall i :: 0 <= i < |p.cart| ==>
            && VoucherRows(q.orderSnapshot)[i].cantidad == p.cart[i].cantidad
            && VoucherRows(q.orderSnapshot)[i].precio == p.cart[i].precio
            && VoucherRows(q.orderSnapshot)[i].subtotal == p.cart[i].precio * p.cart[i].cantidad)
      && VoucherTotal(q.orderSnapshot) == Cart.TotalPrice(p.cart)
      && SumSubtotals(VoucherRows(q.orderSnapshot)) == Cart.TotalPrice(p.cart)
  {
    var lines := Lines(p.cart);
    LinesCorrespond(p.cart);
    RowsCorrespond(lines);
    SubtotalsAddUp(p.cart);
  }

  /** Each voucher row shows its line, with the product name defaulted and the subtotal computed. */
  lemma {:induction false} RowsCorrespond(lines: seq<OrderLine>)
    ensures |RowsOf(lines)| == |lines|
    ensures forall i :: 0 <= i < |lines| ==>
      && RowsOf(lines)[i].cantidad == lines[i].cantidad
      && RowsOf(lines)[i].precio == lines[i].precio
      && RowsOf(lines)[i].subtotal == lines[i].precio * lines[i].cantidad
      && RowsOf(lines)[i].nombre == (if lines[i].nombre == "" then "Producto" else lines[i].nombre)
  {
    if |lines| > 0 {
      RowsCorrespond(lines[1..]);
      assert forall i :: 1 <= i < |lines| ==> RowsOf(lines)[i] == RowsOf(lines[1..])[i - 1];
    }
  }

  /** The voucher code: the tracking code if truthy, else the order id if truthy, else empty. */
  lemma VoucherCodeFallback(result: Option<Reply>)
    ensures Truthy(TrackingCode(result)) ==> VoucherCode(result) == Display(TrackingCode(result))
    ensures !Truthy(TrackingCode(result)) && Truthy(OrderId(result)) ==> VoucherCode(result) == Display(OrderId(result))
    ensures !Truthy(TrackingCode(result)) && !Truthy(OrderId(result)) ==> VoucherCode(result) == ""
    ensures result.None? ==> VoucherCode(result) == ""
  {
  }

  /** The download name uses the voucher code when there is one, and `pedido` otherwise. */
  lemma DownloadNameFallback(result: Option<Reply>)
    ensures VoucherCode(result) != "" ==> DownloadCode(result) == VoucherCode(result)
    ensures VoucherCode(result) == "" ==> DownloadCode(result) == "pedido"
    ensures DownloadCode(result) != ""
  {
    var code := Or(TrackingCode(result), OrderId(result));
    if Truthy(code) {
      TruthyDisplaysNonEmpty(code);
    }
  }

  /** The PDF and the fall-back HTML file carry the same name up to the extension. */
  lemma DownloadNamesAgree(result: Option<Reply>)
    ensures PdfName(result)[..|PdfName(result)| - 4] == HtmlName(result)[..|HtmlName(result)| - 5]
    ensures PdfName(result)[|PdfName(result)| - 4..] == ".pdf"
    ensures HtmlName(result)[|HtmlName(result)| - 5..] == ".html"
  {
    var stem := "comprobante_" + DownloadCode(result);
    assert PdfName(result) == stem + ".pdf";
    assert HtmlName(result) == stem + ".html";
  }
}

=== FILE: db.dfy ===
/**
 * The MySQL-compatibility shim every backend query goes through (`db.query`).
 *
 * A statement arrives as its raw text together with the captures the shim's
 * regular expressions produce on it (the regex engine is not modelled). From the
 * upper-cased, trimmed text and those captures the shim decides a Plan: the one
 * store operation it would issue. The store's reply is then shaped into what the
 * caller's callback receives and what the call returns or throws.
 */
module Db {
  import opened Wrappers
  import opened Text
  import opened Values

  /** `/ORDER BY\s+(\w+)(?:\s+(ASC|DESC))?/i`: the column and the optional direction word. */
  datatype OrderClause = OrderClause(column: string, direction: Option<string>)

  /** A SQL statement with the captures of the shim's regular expressions on its text. */
  datatype Statement = Statement(
    text: string,
    fromTable: Option<string>,          // /FROM\s+(\w+)/i
    insertTable: Option<string>,        // /INSERT INTO\s+(\w+)/i
    columnList: Option<string>,         // /\((.*?)\)\s*VALUES/i
    updateTable: Option<string>,        // /UPDATE\s+(\w+)/i
    setClause: Option<string>,          // /SET\s+(.*?)\s+WHERE/i
    whereColumn: Option<string>,        // /WHERE\s+(\w+)\s*=\s*\?/i, first occurrence only
    targetTable: Option<string>,        // /(?:FROM|UPDATE)\s+(\w+)/i
    orderClause: Option<OrderClause>)

  /** An equality filter `column = value` (the store's `eq`). */
  datatype Filter = Eq(column: string, value: Value)

  datatype Ordering = Ordering(column: string, ascending: bool)

  /** The one store operation a statement turns into. */
  datatype Plan =
    | Read(table: string, filters: seq<Filter>, order: Option<Ordering>)
    | Insert(table: string, row: Row)
      /** `softDelete` marks the DELETE branch, whose result carries no rows. */
    | Update(table: string, changes: Row, filter: Filter, softDelete: bool)
      /** BEGIN, COMMIT and ROLLBACK: acknowledged, nothing is sent to the store. */
    | Acknowledge

  datatype DbError =
    | NoTable
    | NoColumns
    | UpdateIncomplete
    | DeleteIncomplete
    | Unsupported(prefix: string)
    | StoreFailure(code: string)
      /** What the caller's own callback threw. */
    | CallbackThrew(message: string)

  /** The message of the `Error` the shim throws. */
  function Message(e: DbError): string {
    match e
    case NoTable => "No se pudo determinar la tabla"
    case NoColumns => "No se pudieron determinar las columnas"
    case UpdateIncomplete => "UPDATE incompleto"
    case DeleteIncomplete => "DELETE incompleto"
    case Unsupported(prefix) => "Tipo de query no soportado: " + prefix
    case StoreFailure(code) => code
    case CallbackThrew(message) => message
  }

  /** `params[i]`: out of range (including `params[-1]`) reads as `undefined`. */
  function Param(params: seq<Value>, i: int): Value {
    if 0 <= i < |params| then params[i] else Undefined
  }

  /** `sql.toUpperCase().trim()`. */
  function Normalised(sql: string): string {
    Trim(ToUpper(sql))
  }

  /** The dispatch words. */
  predicate IsTransactionWord(upper: string) {
    upper == "BEGIN" || upper == "COMMIT" || upper == "ROLLBACK"
  }

  /** `upper.substring(0, 20)`. */
  function Prefix20(upper: string): string {
    if |upper| <= 20 then upper else upper[..20]
  }

  /**
   * Binds the i-th name to `params[i]` as `obj[name] = params[i]` does, left to right:
   * a name that occurs twice keeps the value bound last.
   */
  function BindColumns(names: seq<string>, params: seq<Value>): (row: Row)
    ensures forall k :: k in row <==> k in names
  {
    if |names| == 0 then map[]
    else BindColumns(names[..|names| - 1], params)[names[|names| - 1] := Param(params, |names| - 1)]
  }

  /** `list.split(',').map(c => c.trim())`: the INSERT column names. */
  function ColumnNames(list: string): (names: seq<string>)
    ensures |names| == |Split(list, ',')|
  {
    var parts := Split(list, ',');
    seq(|parts|, i requires 0 <= i < |parts| => Trim(parts[i]))
  }

  /** The pieces of `names.join(', ')` between the commas: every name after the first keeps its space. */
  function Padded(names: seq<string>): (pieces: seq<string>)
    ensures |pieces| == |names|
  {
    seq(|names|, i requires 0 <= i < |names| => if i == 0 then names[0] else " " + names[i])
  }

  /** A column list written `a, b, c`. */
  function CommaList(names: seq<string>): string
    requires |names| >= 1
  {
    Join(Padded(names), ',')
  }

  /** Reading back a column list written `a, b, c` gives the names, when no name has a comma or outer spaces. */
  lemma ColumnNamesOfCommaList(names: seq<string>)
    requires |names| >= 1
    requires forall i :: 0 <= i < |names| ==> ',' !in names[i] && Trimmed(names[i])
    ensures ColumnNames(CommaList(names)) == names
  {
    var pieces := Padded(names);
    forall i | 0 <= i < |pieces| ensures ',' !in pieces[i] {
      assert ',' !in names[i];
      assert ',' != ' ';
    }
    SplitJoin(pieces, ',');
    var r := ColumnNames(CommaList(names));
    forall i | 0 <= i < |names| ensures r[i] == names[i] {
      TrimPadded(names[i]);
    }
  }

  /** The column of one `col = expr` pair of a SET clause: `pair.trim().split('=')[0].trim()`. */
  function SetColumn(pair: string): string {
    Trim(Split(Trim(pair), '=')[0])
  }

  /** The SET columns, one per comma-separated pair. */
  function SetColumns(clause: string): (names: seq<string>)
    ensures |names| == |Split(clause, ',')|
  {
    var pairs := Split(clause, ',');
    seq(|pairs|, i requires 0 <= i < |pairs| => SetColumn(pairs[i]))
  }

  /** One `col = expr` pair as a statement writes it. */
  function Assignment(name: string, expr: string): string {
    name + " = " + expr
  }

  /** The pairs `names[i] = exprs[i]`, to be written `a = x, b = y`. */
  function Assignments(names: seq<string>, exprs: seq<string>): (pairs: seq<string>)
    requires |names| == |exprs|
    ensures |pairs| == |names|
  {
    seq(|names|, i requires 0 <= i < |names| => Assignment(names[i], exprs[i]))
  }

  /** The column of a pair written `name = expr`, with or without the space after a comma, is the name. */
  lemma SetColumnOfAssignment(name: string, expr: string)
    requires Trimmed(name) && '=' !in name && Trimmed(expr)
    ensures SetColumn(Assignment(name, expr)) == name
    ensures SetColumn(" " + Assignment(name, expr)) == name
  {
    AssignmentTrimmed(name, expr);
    TrimPadded(Assignment(name, expr));
    AssignmentSplit(name, expr);
    TrimTrailingSpace(name);
  }

  /** A pair of trimmed sides is itself trimmed. */
  lemma AssignmentTrimmed(name: string, expr: string)
    requires Trimmed(name) && Trimmed(expr)
    ensures Trimmed(Assignment(name, expr))
  {
    var a := Assignment(name, expr);
    assert a[0] == name[0] && a[|a| - 1] == expr[|expr| - 1];
  }

  /** Splitting a pair on `=` leaves the name and the space before the `=` in front. */
  lemma AssignmentSplit(name: string, expr: string)
    requires '=' !in name
    ensures Split(Assignment(name, expr), '=')[0] == name + " "
  {
    assert Assignment(name, expr) == (name + " ") + ['='] + (" " + expr);
    assert '=' !in name + " ";
    SplitCons(name + " ", " " + expr, '=');
  }

  /**
   * Reading back a SET clause written `a = x, b = y` gives the column names, when no
   * name has a comma, an `=` or outer spaces and no expression has a comma or outer spaces.
   */
  lemma SetColumnsOfAssignments(names: seq<string>, exprs: seq<string>)
    requires |names| == |exprs| >= 1
    requires forall i :: 0 <= i < |names| ==> Trimmed(names[i]) && ',' !in names[i] && '=' !in names[i]
    requires forall i :: 0 <= i < |exprs| ==> Trimmed(exprs[i]) && ',' !in exprs[i]
    ensures SetColumns(CommaList(Assignments(names, exprs))) == names
  {
    var pairs := Assignments(names, exprs);
    var pieces := Padded(pairs);
    AssignmentsWithoutComma(names, exprs);
    SplitJoin(pieces, ',');
    var r := SetColumns(CommaList(pairs));
    forall i | 0 <= i < |names| ensures r[i] == names[i] {
      assert r[i] == SetColumn(pieces[i]);
      SetColumnOfAssignment(names[i], exprs[i]);
      if i == 0 {
        assert pieces[i] == Assignment(names[i], exprs[i]);
      } else {
        assert pieces[i] == " " + Assignment(names[i], exprs[i]);
      }
    }
  }

  /** No piece of a SET clause written `a = x, b = y` holds a comma. */
  lemma AssignmentsWithoutComma(names: seq<string>, exprs: seq<string>)
    requires |names| == |exprs|
    requires forall i :: 0 <= i < |names| ==> ',' !in names[i]
    requires forall i :: 0 <= i < |exprs| ==> ',' !in exprs[i]
    ensures forall i :: 0 <= i < |names| ==> ',' !in Padded(Assignments(names, exprs))[i]
  {
    var pieces := Padded(Assignments(names, exprs));
    forall i | 0 <= i < |names| ensures ',' !in pieces[i] {
      assert ',' !in names[i] && ',' !in exprs[i];
      assert ',' !in " = " && ',' !in " ";
    }
  }

  /** ORDER BY direction: ascending when the word is absent or reads ASC. */
  function Ascending(direction: Option<string>): bool {
    direction.None? || ToUpper(direction.value) == "ASC"
  }

  /** The filter of the first `col = ?` condition, bound to `params[0]` when there is one. */
  function KeyFilter(st: Statement, params: seq<Value>): seq<Filter> {
    if st.whereColumn.Some? && |params| > 0 then [Eq(st.whereColumn.value, params[0])] else []
  }

  /** The filter the literal `activo = TRUE` adds. */
  function ActiveFilter(text: string): seq<Filter> {
    if Contains(text, "activo = TRUE") then [Eq("activo", Bool(true))] else []
  }

  function SelectOrder(st: Statement): Option<Ordering> {
    if Contains(st.text, "ORDER BY") && st.orderClause.Some?
    then Some(Ordering(st.orderClause.value.column, Ascending(st.orderClause.value.direction)))
    else None
  }

  function PlanSelect(st: Statement, params: seq<Value>): (r: Result<Plan, DbError>)
    ensures r.Ok? ==> r.value.Read?
    ensures r.Err? ==> r.error == NoTable
  {
    match st.fromTable
    case None => Err(NoTable)
    case Some(table) => Ok(Read(table, KeyFilter(st, params) + ActiveFilter(st.text), SelectOrder(st)))
  }

  function PlanInsert(st: Statement, params: seq<Value>): (r: Result<Plan, DbError>)
    ensures r.Ok? ==> r.value.Insert?
    ensures r.Err? ==> r.error == NoTable || r.error == NoColumns
  {
    match st.insertTable
    case None => Err(NoTable)
    case Some(table) =>
      match st.columnList
      case None => Err(NoColumns)
      case Some(list) => Ok(Insert(table, BindColumns(ColumnNames(list), params)))
  }

  function PlanUpdate(st: Statement, params: seq<Value>): (r: Result<Plan, DbError>)
    ensures r.Ok? ==> r.value.Update? && !r.value.softDelete
    ensures r.Err? ==> r.error == NoTable || r.error == UpdateIncomplete
  {
    match st.updateTable
    case None => Err(NoTable)
    case Some(table) =>
      if st.setClause.None? || st.whereColumn.None? then Err(UpdateIncomplete)
      else
        var changes := BindColumns(SetColumns(st.setClause.value), params);
        Ok(Update(table, changes, Eq(st.whereColumn.value, Param(params, |params| - 1)), false))
  }

  /** The changes a DELETE makes instead of removing rows. */
  function Deactivate(): Row {
    map["activo" := Bool(false)]
  }

  function PlanDelete(st: Statement, params: seq<Value>): (r: Result<Plan, DbError>)
    ensures r.Ok? ==> r.value.Update? && r.value.softDelete
    ensures r.Err? ==> r.error == DeleteIncomplete
  {
    if st.targetTable.None? || st.whereColumn.None? then Err(DeleteIncomplete)
    else Ok(Update(st.targetTable.value, Deactivate(), Eq(st.whereColumn.value, Param(params, 0)), true))
  }

  /** The branch of `db.query` a statement takes. */
  datatype Kind = SelectKind | InsertKind | UpdateKind | DeleteKind | TransactionKind | UnknownKind

  /** The statement dispatch of `db.query`, in the source's order. */
  function KindOf(st: Statement): Kind {
    var upper := Normalised(st.text);
    if StartsWith(upper, "SELECT") then SelectKind
    else if StartsWith(upper, "INSERT") then InsertKind
    else if StartsWith(upper, "UPDATE") then UpdateKind
    else if StartsWith(upper, "DELETE") || Contains(st.text, "SET activo = FALSE") then DeleteKind
    else if IsTransactionWord(upper) then TransactionKind
    else UnknownKind
  }

  /**
   * The plan of the branch taken: reads come only from SELECT, inserts only from INSERT,
   * the acknowledgement exactly from a transaction word, and the unsupported error
   * exactly from a statement no branch takes.
   */
  function PlanQuery(st: Statement, params: seq<Value>): (r: Result<Plan, DbError>)
    ensures r.Ok? && r.value.Acknowledge? <==> KindOf(st) == TransactionKind
    ensures r.Err? && r.error.Unsupported? <==> KindOf(st) == UnknownKind
    ensures r.Ok? && r.value.Read? ==> KindOf(st) == SelectKind
    ensures r.Ok? && r.value.Insert? ==> KindOf(st) == InsertKind
    ensures r.Ok? && r.value.Update? ==> (r.value.softDelete <==> KindOf(st) == DeleteKind)
  {
    match KindOf(st)
    case SelectKind => PlanSelect(st, params)
    case InsertKind => PlanInsert(st, params)
    case UpdateKind => PlanUpdate(st, params)
    case DeleteKind => PlanDelete(st, params)
    case TransactionKind => Ok(Acknowledge)
    case UnknownKind => Err(Unsupported(Prefix20(Normalised(st.text))))
  }

  // ---------------------------------------------------------------------------
  // Arguments, store reply and result shape.

  /** The second argument of `db.query`: a parameter array or the callback itself. */
  datatype SecondArg = Params(values: seq<Value>) | CallbackArg

  datatype Args = Args(params: seq<Value>, hasCallback: bool)

  /** `if (typeof params === 'function') { callback = params; params = []; }` */
  function NormaliseArgs(second: SecondArg, thirdIsCallback: bool): (a: Args)
    ensures second.CallbackArg? ==> a == Args([], true)
    ensures second.Params? ==> a == Args(second.values, thirdIsCallback)
  {
    match second
    case CallbackArg => Args([], true)
    case Params(ps) => Args(ps, thirdIsCallback)
  }

  /** What the store answers: `data` (possibly null) or an error. */
  datatype StoreReply = Data(rows: Option<seq<Row>>) | StoreError(code: string)

  /** The second argument the callback receives on success. */
  datatype Payload =
    | RowsPayload(rows: seq<Row>)
    | InsertPayload(insertId: Value, affectedRows: nat, inserted: Option<seq<Row>>)
    | UpdatePayload(affectedRows: nat, updated: Option<seq<Row>>)
    | DeletePayload(affectedRows: nat)
    | AckPayload(message: string)

  /** `callback(error, result)`: exactly one of the two is non-null. */
  datatype CallbackCall = CallbackCall(error: Option<DbError>, result: Option<Payload>)

  /** How the `async` call settles. */
  datatype Settled = ReturnsRows(rows: Option<seq<Row>>) | ReturnsUndefined | Throws(error: DbError)

  datatype QueryOutcome = QueryOutcome(callback: Option<CallbackCall>, settled: Settled)

  /** `data ? data.length : 0`. */
  function RowCount(data: Option<seq<Row>>): nat {
    if data.Some? then |data.value| else 0
  }

  /** `data && data.length > 0 ? data[0].id : null`. */
  function FirstId(data: Option<seq<Row>>): Value {
    if data.Some? && |data.value| > 0 then Field(data.value[0], "id") else Null
  }

  /** The catch block: report to the callback, then rethrow. */
  function Fail(e: DbError, hasCallback: bool): QueryOutcome {
    QueryOutcome(if hasCallback then Some(CallbackCall(Some(e), None)) else None, Throws(e))
  }

  function Succeed(p: Payload, hasCallback: bool, settled: Settled): QueryOutcome {
    QueryOutcome(if hasCallback then Some(CallbackCall(None, Some(p))) else None, settled)
  }

  /** The result shape of a plan once the store has replied. */
  function Complete(plan: Plan, reply: StoreReply, hasCallback: bool): (o: QueryOutcome)
    ensures o.callback.Some? <==> hasCallback
    ensures o.callback.Some? ==> (o.callback.value.error.Some? <==> o.settled.Throws?)
    ensures o.callback.Some? && o.settled.Throws? ==> o.callback.value.error == Some(o.settled.error)
  {
    match plan
    case Acknowledge => Succeed(AckPayload("Transaction command acknowledged"), hasCallback, ReturnsUndefined)
    case _ =>
      match reply
      case StoreError(code) => Fail(StoreFailure(code), hasCallback)
      case Data(data) =>
        match plan
        case Read(_, _, _) =>
          var rows := data.GetOr([]);
          Succeed(RowsPayload(rows), hasCallback, ReturnsRows(Some(rows)))
        case Insert(_, _) =>
          Succeed(InsertPayload(FirstId(data), RowCount(data), data), hasCallback, ReturnsRows(data))
        case Update(_, _, _, soft) =>
          var p := if soft then DeletePayload(RowCount(data)) else UpdatePayload(RowCount(data), data);
          Succeed(p, hasCallback, ReturnsRows(data))
  }

  /**
   * `db.query(sql, second, third)` end to end; `reply` is what the store would
   * answer to the planned operation and is not consulted for Acknowledge.
   */
  function Query(st: Statement, second: SecondArg, thirdIsCallback: bool, reply: StoreReply): (o: QueryOutcome)
    ensures o.callback.Some? <==> second.CallbackArg? || thirdIsCallback
    ensures o.callback.Some? ==> (o.callback.value.error.Some? <==> o.settled.Throws?)
    ensures o.callback.Some? && o.settled.Throws? ==> o.callback.value.error == Some(o.settled.error)
  {
    var args := NormaliseArgs(second, thirdIsCallback);
    match PlanQuery(st, args.params)
    case Err(e) => Fail(e, args.hasCallback)
    case Ok(plan) => Complete(plan, reply, args.hasCallback)
  }

  /** The calls the callback receives, in order, and how the call settles. */
  datatype Observed = Observed(calls: seq<CallbackCall>, settled: Settled)

  /**
   * The outcome as the caller sees it when its callback throws `thrown` on every call
   * (None: the callback returns). A callback called with a result runs inside the
   * `try`: what it throws is caught, handed to the callback a second time, and rethrown.
   * A callback called from the catch block with an error throws out of the catch.
   */
  function Observe(o: QueryOutcome, thrown: Option<string>): Observed {
    match o.callback
    case None => Observed([], o.settled)
    case Some(c) =>
      if thrown.None? then Observed([c], o.settled)
      else if c.error.Some? then Observed([c], Throws(CallbackThrew(thrown.value)))
      else Observed([c, CallbackCall(Some(CallbackThrew(thrown.value)), None)], Throws(CallbackThrew(thrown.value)))
  }

  // ---------------------------------------------------------------------------
  // A reference store: what the planned operations mean on a table.

  predicate Satisfies(row: Row, f: Filter) {
    f.column in row && row[f.column] == f.value
  }

  predicate SatisfiesAll(row: Row, filters: seq<Filter>) {
    forall i :: 0 <= i < |filters| ==> Satisfies(row, filters[i])
  }

  /** The rows a Read returns, in table order (ordering is the store's and is not modelled). */
  function RunRead(rows: seq<Row>, filters: seq<Filter>): (r: seq<Row>)
    ensures forall x :: x in r <==> x in rows && SatisfiesAll(x, filters)
  {
    if |rows| == 0 then []
    else if SatisfiesAll(rows[0], filters) then [rows[0]] + RunRead(rows[1..], filters)
    else RunRead(rows[1..], filters)
  }

  /**
   * The row the store keeps for an inserted object. The object travels as JSON, which has
   * no `undefined`: such a key is not sent, and its column reads back as the table's
   * default when `defaults` gives one, and as absent otherwise. Every other value is kept.
   */
  function Persisted(row: Row, defaults: Row): (r: Row)
    ensures forall k :: k !in defaults ==> Field(r, k) == Field(row, k)
    ensures forall k :: k in defaults ==> Field(r, k) == if Field(row, k) == Undefined then defaults[k] else Field(row, k)
    ensures forall k :: k in r ==> k in defaults || r[k] != Undefined
  {
    map k | k in row.Keys + defaults.Keys && ((k in row && row[k] != Undefined) || k in defaults)
      :: if k in row && row[k] != Undefined then row[k] else defaults[k]
  }

  /** An Update: every row matching the filter gets the changes, every other row is kept. */
  function RunUpdate(rows: seq<Row>, changes: Row, filter: Filter): (r: seq<Row>)
    ensures |r| == |rows|
  {
    seq(|rows|, i requires 0 <= i < |rows| => if Satisfies(rows[i], filter) then rows[i] + changes else rows[i])
  }

  // ---------------------------------------------------------------------------
  // Normalisation facts.

  /** Upper-casing keeps white space and keeps every other character non-space. */
  lemma UpperCharSpace(c: char)
    ensures IsSpace(UpperChar(c)) <==> IsSpace(c)
  {
  }

  /** A non-space character of the text survives, upper-cased, in the normalised text. */
  lemma CharSurvivesNormalise(s: string, i: nat)
    requires i < |s|
    ensures !IsSpace(s[i]) ==> UpperChar(s[i]) in Normalised(s)
  {
    if IsSpace(s[i]) {
      return;
    }
    var u := ToUpper(s);
    UpperCharSpace(s[i]);
    assert u[i] == UpperChar(s[i]);
    var t := TrimStart(u);
    assert |u| - |t| <= i;
    var e := TrimEnd(t);
    assert i - (|u| - |t|) < |e|;
    assert e[i - (|u| - |t|)] == u[i];
  }

  /**
   * A text that opens with white space and then the word `w` (in any ASCII case)
   * normalises to something starting with `w`.
   */
  lemma NormalisedStartsWith(s: string, k: nat, w: string)
    requires 0 < |w| && k + |w| <= |s|
    requires forall i :: 0 <= i < k ==> IsSpace(s[i])
    requires forall j :: 0 <= j < |w| ==> !IsSpace(w[j])
    requires ToUpper(s[k..k + |w|]) == w
    ensures StartsWith(Normalised(s), w)
  {
    UpperKeepsSpaces(s, k);
    UpperSlice(s, k, |w|);
    TrimmedStartsWith(ToUpper(s), k, w);
  }

  /** Upper-casing keeps a white-space prefix. */
  lemma UpperKeepsSpaces(s: string, k: nat)
    requires k <= |s|
    requires forall i :: 0 <= i < k ==> IsSpace(s[i])
    ensures forall i :: 0 <= i < k ==> IsSpace(ToUpper(s)[i])
  {
    forall i | 0 <= i < k ensures IsSpace(ToUpper(s)[i]) {
      UpperCharSpace(s[i]);
    }
  }

  /** Upper-casing commutes with taking a slice. */
  lemma UpperSlice(s: string, k: nat, n: nat)
    requires k + n <= |s|
    ensures ToUpper(s)[k..k + n] == ToUpper(s[k..k + n])
  {
  }

  // ---------------------------------------------------------------------------
  // Dispatch.

  /** The dispatch words are told apart by their first letter: at most one branch applies. */
  lemma DispatchWordsExclusive(upper: string)
    ensures StartsWith(upper, "SELECT") ==> upper[0] == 'S'
    ensures StartsWith(upper, "INSERT") ==> upper[0] == 'I'
    ensures StartsWith(upper, "UPDATE") ==> upper[0] == 'U'
    ensures StartsWith(upper, "DELETE") ==> upper[0] == 'D'
    ensures IsTransactionWord(upper) ==> upper[0] == 'B' || upper[0] == 'C' || upper[0] == 'R'
  {
    if StartsWith(upper, "SELECT") { assert upper[0] == upper[..6][0]; }
    if StartsWith(upper, "INSERT") { assert upper[0] == upper[..6][0]; }
    if StartsWith(upper, "UPDATE") { assert upper[0] == upper[..6][0]; }
    if StartsWith(upper, "DELETE") { assert upper[0] == upper[..6][0]; }
  }

  /** A statement whose normalised text opens with one of the four words takes that word's branch. */
  lemma KindOfWord(st: Statement)
    ensures StartsWith(Normalised(st.text), "SELECT") ==> KindOf(st) == SelectKind
    ensures StartsWith(Normalised(st.text), "INSERT") ==> KindOf(st) == InsertKind
    ensures StartsWith(Normalised(st.text), "UPDATE") ==> KindOf(st) == UpdateKind
    ensures StartsWith(Normalised(st.text), "DELETE") ==> KindOf(st) == DeleteKind
  {
    DispatchWordsExclusive(Normalised(st.text));
  }

  /**
   * Only the dispatch rejects a statement as unsupported: every branch's own errors are
   * of other kinds. The message quotes at most 20 characters of the normalised text.
   */
  lemma UnsupportedIff(st: Statement, params: seq<Value>)
    ensures PlanQuery(st, params).Err? && PlanQuery(st, params).error.Unsupported? <==> KindOf(st) == UnknownKind
    ensures KindOf(st) == UnknownKind ==> PlanQuery(st, params) == Err(Unsupported(Prefix20(Normalised(st.text))))
  {
  }

  /** A statement not opening with a dispatch word, with no soft-delete text and no transaction word, is unknown. */
  lemma UnknownKindIff(st: Statement)
    ensures var upper := Normalised(st.text);
      KindOf(st) == UnknownKind <==>
        && !StartsWith(upper, "SELECT") && !StartsWith(upper, "INSERT")
        && !StartsWith(upper, "UPDATE") && !StartsWith(upper, "DELETE")
        && !Contains(st.text, "SET activo = FALSE")
        && !IsTransactionWord(upper)
  {
  }

  /** The quoted prefix is the first (at most) 20 characters of the normalised text. */
  lemma UnsupportedPrefix(upper: string)
    ensures |Prefix20(upper)| <= 20 && StartsWith(upper, Prefix20(upper))
    ensures |upper| <= 20 ==> Prefix20(upper) == upper
  {
  }

  /** BEGIN, COMMIT and ROLLBACK are acknowledged whatever the parameters, and touch no table. */
  lemma TransactionWordsAcknowledged(st: Statement, params: seq<Value>)
    requires IsTransactionWord(Normalised(st.text))
    ensures PlanQuery(st, params) == Ok(Acknowledge)
  {
    TransactionKindOf(st);
  }

  lemma TransactionKindOf(st: Statement)
    requires IsTransactionWord(Normalised(st.text))
    ensures KindOf(st) == TransactionKind
  {
    TransactionTextNotSoftDelete(st.text);
    TransactionWordNotStatement(Normalised(st.text));
  }

  lemma TransactionWordNotStatement(upper: string)
    requires IsTransactionWord(upper)
    ensures !StartsWith(upper, "SELECT") && !StartsWith(upper, "INSERT")
    ensures !StartsWith(upper, "UPDATE") && !StartsWith(upper, "DELETE")
  {
    DispatchWordsExclusive(upper);
  }

  lemma TransactionTextNotSoftDelete(s: string)
    requires IsTransactionWord(Normalised(s))
    ensures !Contains(s, "SET activo = FALSE")
  {
    TransactionTextLacksV(s);
    assert "SET activo = FALSE"[8] == 'v';
    NotContainsMissingChar(s, "SET activo = FALSE", 'v');
  }

  /** A text that normalises to a transaction word has no `v` (none of the words has a V). */
  lemma TransactionTextLacksV(s: string)
    requires IsTransactionWord(Normalised(s))
    ensures 'v' !in s
  {
    TransactionWordLacksV(Normalised(s));
    forall i | 0 <= i < |s| ensures s[i] != 'v' {
      CharSurvivesNormalise(s, i);
    }
  }

  lemma TransactionWordLacksV(upper: string)
    requires IsTransactionWord(upper)
    ensures 'V' !in upper
  {
  }

  /** A transaction word never reaches the store: the outcome is the same whatever it would reply. */
  lemma TransactionIsNoOp(st: Statement, second: SecondArg, third: bool, r1: StoreReply, r2: StoreReply)
    requires IsTransactionWord(Normalised(st.text))
    ensures Query(st, second, third, r1) == Query(st, second, third, r2)
    ensures Query(st, second, third, r1).settled == ReturnsUndefined
    ensures var a := NormaliseArgs(second, third);
      a.hasCallback ==>
        Query(st, second, third, r1).callback == Some(CallbackCall(None, Some(AckPayload("Transaction command acknowledged"))))
  {
    TransactionWordsAcknowledged(st, NormaliseArgs(second, third).params);
  }

  // ---------------------------------------------------------------------------
  // SELECT

  /** Only `params[0]` can reach a SELECT plan: the remaining parameters never matter. */
  lemma SelectIgnoresLaterParams(st: Statement, params: seq<Value>)
    requires KindOf(st) == SelectKind && |params| >= 1
    ensures PlanQuery(st, params) == PlanQuery(st, params[..1])
  {
  }

  /**
   * A SELECT returns exactly the rows that match the first `col = ?` condition (bound to
   * `params[0]`, and only when there is a parameter) and, when the text contains the
   * literal `activo = TRUE`, have `activo` true. Any later condition is not applied.
   */
  lemma SelectRowsMatchFirstCondition(st: Statement, params: seq<Value>, rows: seq<Row>, x: Row)
    requires KindOf(st) == SelectKind && st.fromTable.Some?
    ensures PlanQuery(st, params).Ok? && PlanQuery(st, params).value.Read?
    ensures PlanQuery(st, params).value.table == st.fromTable.value
    ensures x in RunRead(rows, PlanQuery(st, params).value.filters) <==>
      && x in rows
      && (st.whereColumn.Some? && |params| > 0 ==> Satisfies(x, Eq(st.whereColumn.value, params[0])))
      && (Contains(st.text, "activo = TRUE") ==> Satisfies(x, Eq("activo", Bool(true))))
  {
    var key, active := KeyFilter(st, params), ActiveFilter(st.text);
    SelectPlanShape(st, params);
    SatisfiesAllAppend(x, key, active);
    SatisfiesSingle(x, key);
    SatisfiesSingle(x, active);
  }

  lemma SelectPlanShape(st: Statement, params: seq<Value>)
    requires KindOf(st) == SelectKind && st.fromTable.Some?
    ensures PlanQuery(st, params) == Ok(Read(st.fromTable.value, KeyFilter(st, params) + ActiveFilter(st.text), SelectOrder(st)))
  {
  }

  /** No filter is always met; a single filter is met when it holds. */
  lemma SatisfiesSingle(x: Row, fs: seq<Filter>)
    requires |fs| <= 1
    ensures SatisfiesAll(x, fs) <==> (|fs| == 1 ==> Satisfies(x, fs[0]))
  {
  }

  /** A row satisfies two lists of filters together exactly when it satisfies each. */
  lemma SatisfiesAllAppend(x: Row, a: seq<Filter>, b: seq<Filter>)
    ensures SatisfiesAll(x, a + b) <==> SatisfiesAll(x, a) && SatisfiesAll(x, b)
  {
    if SatisfiesAll(x, a) && SatisfiesAll(x, b) {
      forall i | 0 <= i < |a + b| ensures Satisfies(x, (a + b)[i]) {
        if i >= |a| {
          assert (a + b)[i] == b[i - |a|];
        }
      }
    }
    if SatisfiesAll(x, a + b) {
      forall i | 0 <= i < |a| ensures Satisfies(x, a[i]) {
        assert (a + b)[i] == a[i];
      }
      forall i | 0 <= i < |b| ensures Satisfies(x, b[i]) {
        assert (a + b)[|a| + i] == b[i];
      }
    }
  }

  /** A SELECT without a FROM table is rejected. */
  lemma SelectWithoutTable(st: Statement, params: seq<Value>)
    requires KindOf(st) == SelectKind && st.fromTable.None?
    ensures PlanQuery(st, params) == Err(NoTable)
  {
  }

  /**
   * ORDER BY is applied only when the text contains `ORDER BY` literally (upper case) and
   * the clause was captured; it is ascending unless the captured word is DESC.
   */
  lemma SelectOrdering(st: Statement, params: seq<Value>)
    requires KindOf(st) == SelectKind && st.fromTable.Some?
    requires st.orderClause.Some? && st.orderClause.value.direction.Some? ==>
      ToUpper(st.orderClause.value.direction.value) in {"ASC", "DESC"}
    ensures var order := PlanQuery(st, params).value.order;
      && (order.Some? <==> Contains(st.text, "ORDER BY") && st.orderClause.Some?)
      && (order.Some? ==> order.value.column == st.orderClause.value.column)
      && (order.Some? ==> (!order.value.ascending <==>
            st.orderClause.value.direction.Some? && ToUpper(st.orderClause.value.direction.value) == "DESC"))
  {
  }

  // ---------------------------------------------------------------------------
  // Column binding

  predicate Distinct(names: seq<string>) {
    forall i, j :: 0 <= i < j < |names| ==> names[i] != names[j]
  }

  /** With distinct names the i-th name is bound to `params[i]` (or undefined past the end). */
  lemma {:induction false} BindColumnsPositional(names: seq<string>, params: seq<Value>, i: nat)
    requires Distinct(names) && i < |names|
    ensures names[i] in BindColumns(names, params) && BindColumns(names, params)[names[i]] == Param(params, i)
    decreases |names|
  {
    var n := |names| - 1;
    if i < n {
      assert names[..n][i] == names[i];
      assert Distinct(names[..n]);
      BindColumnsPositional(names[..n], params, i);
      assert names[n] != names[i];
    }
  }

  /**
   * INSERT binds the i-th trimmed column of the parenthesised list to `params[i]`;
   * the row has exactly those columns.
   */
  lemma InsertBindsColumns(st: Statement, params: seq<Value>, i: nat)
    requires KindOf(st) == InsertKind
    requires st.insertTable.Some? && st.columnList.Some?
    requires Distinct(ColumnNames(st.columnList.value)) && i < |ColumnNames(st.columnList.value)|
    ensures var names := ColumnNames(st.columnList.value);
      && PlanQuery(st, params).Ok? && PlanQuery(st, params).value.Insert?
      && PlanQuery(st, params).value.table == st.insertTable.value
      && (forall k :: k in PlanQuery(st, params).value.row <==> k in names)
      && names[i] in PlanQuery(st, params).value.row
      && PlanQuery(st, params).value.row[names[i]] == Param(params, i)
  {
    BindColumnsPositional(ColumnNames(st.columnList.value), params, i);
  }

  /** INSERT without a table or without a column list is rejected, table first. */
  lemma InsertIncomplete(st: Statement, params: seq<Value>)
    requires KindOf(st) == InsertKind
    ensures st.insertTable.None? ==> PlanQuery(st, params) == Err(NoTable)
    ensures st.insertTable.Some? && st.columnList.None? ==> PlanQuery(st, params) == Err(NoColumns)
  {
  }

  /**
   * The callback of a successful INSERT gets `insertId` = the first returned row's id
   * (null when nothing came back) and `affectedRows` = the number of returned rows.
   */
  lemma InsertResultShape(table: string, row: Row, data: Option<seq<Row>>, hasCallback: bool)
    ensures var o := Complete(Insert(table, row), Data(data), hasCallback);
      && o.settled == ReturnsRows(data)
      && (hasCallback <==> o.callback.Some?)
      && (o.callback.Some? ==> o.callback.value.error.None? && o.callback.value.result.Some?)
      && (o.callback.Some? ==>
            var p := o.callback.value.result.value;
            && p.InsertPayload?
            && (data.Some? && |data.value| > 0 ==> p.insertId == Field(data.value[0], "id"))
            && (data.None? || |data.value| == 0 ==> p.insertId == Null)
            && (data.Some? ==> p.affectedRows == |data.value|)
            && (data.None? ==> p.affectedRows == 0))
  {
  }

  // ---------------------------------------------------------------------------
  // UPDATE and DELETE

  /**
   * UPDATE binds the i-th SET column to `params[i]` and filters the WHERE column
   * against the LAST parameter; missing SET...WHERE or `col = ?` is `UPDATE incompleto`.
   */
  lemma UpdateBinding(st: Statement, params: seq<Value>, i: nat)
    requires KindOf(st) == UpdateKind && st.updateTable.Some?
    requires st.setClause.Some? && st.whereColumn.Some?
    requires Distinct(SetColumns(st.setClause.value)) && i < |SetColumns(st.setClause.value)|
    ensures var r := PlanQuery(st, params);
      && r.Ok? && r.value.Update?
      && r.value.table == st.updateTable.value
      && r.value.filter == Eq(st.whereColumn.value, Param(params, |params| - 1))
      && !r.value.softDelete
      && SetColumns(st.setClause.value)[i] in r.value.changes
      && r.value.changes[SetColumns(st.setClause.value)[i]] == Param(params, i)
  {
    UpdatePlanShape(st, params);
    BindColumnsPositional(SetColumns(st.setClause.value), params, i);
  }

  lemma UpdatePlanShape(st: Statement, params: seq<Value>)
    requires KindOf(st) == UpdateKind && st.updateTable.Some?
    requires st.setClause.Some? && st.whereColumn.Some?
    ensures PlanQuery(st, params) ==
      Ok(Update(st.updateTable.value, BindColumns(SetColumns(st.setClause.value), params),
                Eq(st.whereColumn.value, Param(params, |params| - 1)), false))
  {
    assert PlanQuery(st, params) == PlanUpdate(st, params);
  }

  lemma PlanUpdateShape(st: Statement, params: seq<Value>)
    requires st.updateTable.Some?
    requires st.setClause.Some? && st.whereColumn.Some?
    ensures PlanUpdate(st, params) ==
      Ok(Update(st.updateTable.value, BindColumns(SetColumns(st.setClause.value), params),
                Eq(st.whereColumn.value, Param(params, |params| - 1)), false))
  {
    var changes := BindColumns(SetColumns(st.setClause.value), params);
    var filter := Eq(st.whereColumn.value, Param(params, |params| - 1));
    assert !(st.setClause.None? || st.whereColumn.None?);
    assert PlanUpdate(st, params) == Ok(Update(st.updateTable.value, changes, filter, false));
  }

  /** An UPDATE without a SET...WHERE part or without a `col = ?` condition is `UPDATE incompleto`. */
  lemma UpdateIncompleteRejected(st: Statement, params: seq<Value>)
    requires KindOf(st) == UpdateKind && st.updateTable.Some?
    requires st.setClause.None? || st.whereColumn.None?
    ensures PlanQuery(st, params) == Err(UpdateIncomplete)
  {
  }

  /**
   * DELETE never removes rows: it becomes an update setting `activo = false` on the rows
   * whose WHERE column equals `params[0]`.
   */
  lemma DeleteIsSoftUpdate(st: Statement, params: seq<Value>)
    requires KindOf(st) == DeleteKind
    ensures st.targetTable.None? || st.whereColumn.None? ==> PlanQuery(st, params) == Err(DeleteIncomplete)
    ensures st.targetTable.Some? && st.whereColumn.Some? ==>
      PlanQuery(st, params) ==
        Ok(Update(st.targetTable.value, map["activo" := Bool(false)], Eq(st.whereColumn.value, Param(params, 0)), true))
  {
  }

  /** Applying a soft delete keeps every row: matches get `activo = false`, others are unchanged. */
  lemma SoftDeleteKeepsRows(rows: seq<Row>, f: Filter, i: nat)
    requires i < |rows|
    ensures |RunUpdate(rows, Deactivate(), f)| == |rows|
    ensures Satisfies(rows[i], f) ==>
      RunUpdate(rows, Deactivate(), f)[i]["activo"] == Bool(false)
      && forall c :: c in rows[i] && c != "activo" ==>
           (c in RunUpdate(rows, Deactivate(), f)[i] && RunUpdate(rows, Deactivate(), f)[i][c] == rows[i][c])
    ensures !Satisfies(rows[i], f) ==> RunUpdate(rows, Deactivate(), f)[i] == rows[i]
  {
  }

  /** A text whose first six characters are `UPDATE` is dispatched as an UPDATE. */
  lemma OpensWithUpdate(st: Statement)
    requires |st.text| >= 6 && st.text[..6] == "UPDATE"
    ensures KindOf(st) == UpdateKind
  {
    NormalisedStartsWith(st.text, 0, "UPDATE");
    KindOfWord(st);
  }

  /** The clause `activo = FALSE` sets the one column `activo`. */
  lemma ActivoFalseColumns()
    ensures SetColumns("activo = FALSE") == ["activo"]
  {
    var pairs := Assignments(["activo"], ["FALSE"]);
    var a := Assignment("activo", "FALSE");
    assert |a| == 14 && forall i :: 0 <= i < 14 ==> a[i] == "activo = FALSE"[i];
    assert pairs == [a];
    assert Padded(pairs) == pairs;
    assert CommaList(pairs) == "activo = FALSE";
    SetColumnsOfAssignments(["activo"], ["FALSE"]);
  }

  /**
   * `UPDATE t SET activo = FALSE WHERE col = ?` is taken by the UPDATE branch, which is
   * checked before the soft-delete test: `activo` is bound to `params[0]`, not to false.
   */
  lemma SetActivoFalseTakesUpdateBranch(st: Statement, params: seq<Value>)
    requires |st.text| >= 6 && st.text[..6] == "UPDATE"
    requires st.setClause == Some("activo = FALSE")
    requires st.updateTable.Some? && st.whereColumn.Some?
    ensures PlanQuery(st, params) ==
      Ok(Update(st.updateTable.value, map["activo" := Param(params, 0)],
                Eq(st.whereColumn.value, Param(params, |params| - 1)), false))
  {
    OpensWithUpdate(st);
    ActivoFalseColumns();
    UpdatePlanShape(st, params);
    assert BindColumns(["activo"], params) == map["activo" := Param(params, 0)] by {
      assert ["activo"][..0] == [];
    }
  }

  // ---------------------------------------------------------------------------
  // Arguments and errors

  /** Passing the callback in place of the parameters is the same as an empty parameter list. */
  lemma CallbackInPlaceOfParams(st: Statement, third: bool, reply: StoreReply)
    ensures Query(st, CallbackArg, third, reply) == Query(st, Params([]), true, reply)
  {
  }

  /**
   * The call throws exactly when planning fails or the store reports an error for a
   * non-transaction plan; then the callback, if any, receives the same error and no result.
   */
  lemma ErrorsReportedAndRethrown(st: Statement, second: SecondArg, third: bool, reply: StoreReply)
    ensures var a := NormaliseArgs(second, third);
      var plan := PlanQuery(st, a.params);
      var o := Query(st, second, third, reply);
      && (o.settled.Throws? <==> plan.Err? || (plan.value != Acknowledge && reply.StoreError?))
      && (o.callback.Some? <==> a.hasCallback)
      && (o.settled.Throws? && a.hasCallback ==> o.callback == Some(CallbackCall(Some(o.settled.error), None)))
      && (!o.settled.Throws? && a.hasCallback ==> o.callback.value.error.None? && o.callback.value.result.Some?)
  {
    var a := NormaliseArgs(second, third);
    match PlanQuery(st, a.params)
    case Err(e) =>
    case Ok(plan) => CompleteReports(plan, reply, a.hasCallback);
  }

  /**
   * With the callback's own behaviour taken into account: the call throws exactly when
   * the query fails or a given callback throws; a callback that throws on its result is
   * called a second time with its own error, and the call then rejects with that error.
   * A callback that returns sees exactly one call, the outcome's.
   */
  lemma CallbackThrowsReported(st: Statement, second: SecondArg, third: bool, reply: StoreReply, thrown: Option<string>)
    ensures var a := NormaliseArgs(second, third);
      var o := Query(st, second, third, reply);
      var r := Observe(o, thrown);
      && (r.settled.Throws? <==> o.settled.Throws? || (a.hasCallback && thrown.Some?))
      && (|r.calls| == 0 <==> !a.hasCallback)
      && (a.hasCallback ==> r.calls[0] == o.callback.value)
      && (|r.calls| == 2 <==> a.hasCallback && thrown.Some? && !o.settled.Throws?)
      && (|r.calls| == 2 ==> r.calls[1] == CallbackCall(Some(CallbackThrew(thrown.value)), None))
      && (a.hasCallback && thrown.Some? ==> r.settled == Throws(CallbackThrew(thrown.value)))
      && (thrown.None? ==> r.settled == o.settled)
  {
    ErrorsReportedAndRethrown(st, second, third, reply);
  }

  /** A planned operation throws exactly on a store error, and reports to the callback either way. */
  lemma CompleteReports(plan: Plan, reply: StoreReply, hasCallback: bool)
    ensures var o := Complete(plan, reply, hasCallback);
      && (o.settled.Throws? <==> plan != Acknowledge && reply.StoreError?)
      && (o.callback.Some? <==> hasCallback)
      && (o.settled.Throws? && hasCallback ==> o.callback == Some(CallbackCall(Some(o.settled.error), None)))
      && (!o.settled.Throws? && hasCallback ==> o.callback.value.error.None? && o.callback.value.result.Some?)
  {
  }
}

=== FILE: session.dfy ===
/**
 * The client's session store (`AuthService` of the frontend): the browser's key-value
 * storage, the `isAuthenticated` flag and the name shown in the navigation bar.
 *
 * Every operation is a function from the old state to the new one. The HTTP call is
 * replaced by its outcome, and decoding a token's payload (base64 and JSON) is a
 * function parameter.
 */
module Session {
  import opened Wrappers
  import opened Text
  import opened Values

  /** The browser storage: every value is a string. */
  type Storage = map<string, string>

  /** The service's state; `shownName` is the last value of the name stream. */
  datatype Session = Session(storage: Storage, authenticated: bool, shownName: string)

  /** The fields of the login and register answers (any of them may be missing). */
  datatype AuthAnswer = AuthAnswer(token: Value, rol: Value, nombre: Value, apellido: Value)

  /** The HTTP outcome of a login or register request. */
  datatype HttpOutcome = Answered(answer: AuthAnswer) | HttpFailed

  /** The decoded payload of a token, as far as the service reads it. */
  datatype Payload = Payload(id: Value, email: Value)

  /** What an operation yields to its subscriber, with the new state. */
  datatype Step = Step(session: Session, result: Option<AuthAnswer>)

  /** `localStorage.getItem(key)`: the stored string, or null. */
  function Get(storage: Storage, key: string): Option<string> {
    if key in storage then Some(storage[key]) else None
  }

  /** `getItem(key)` read for truthiness: present and non-empty. */
  predicate Stored(storage: Storage, key: string) {
    key in storage && storage[key] != ""
  }

  /** The constructor: a stored non-empty name restores the session. */
  function Construct(storage: Storage): (r: Session)
    ensures r.storage == storage
    ensures r.authenticated ==> IsLoggedIn(r) && r.shownName == GetNombreUsuario(r)
    ensures !r.authenticated ==> r.shownName == "" && !Stored(storage, "nombre")
  {
    if Stored(storage, "nombre") then Session(storage, true, storage["nombre"])
    else Session(storage, false, "")
  }

  /** `decoded?.field || ''`, as the string `setItem` stores. */
  function PayloadField(decoded: Option<Payload>, id: bool): string {
    var v := if decoded.None? then Undefined else if id then decoded.value.id else decoded.value.email;
    Display(Or(v, Str("")))
  }

  /** The keys a login with a token writes. */
  const LoginKeys: set<string> := {"authToken", "userId", "rol", "nombre", "apellido", "email"}

  /** `login`: store the session when the answer carries a token; an HTTP failure clears the flag. */
  function Login(s: Session, outcome: HttpOutcome, decode: string -> Option<Payload>): (st: Step)
    ensures st.result.None? ==> st.session.storage == s.storage
    ensures st.result.Some? ==> st.session.authenticated && GetToken(st.session).Some? && GetToken(st.session).value != ""
    ensures st.result.Some? ==> st.session.shownName == GetNombreUsuario(st.session)
  {
    match outcome
    case HttpFailed => Step(s.(authenticated := false), None)
    case Answered(a) =>
      if !Truthy(a.token) then Step(s, None)
      else
        TruthyDisplaysNonEmpty(a.token);
        var token := Display(a.token);
        var decoded := decode(token);
        var nombre := Display(Or(a.nombre, Str("Usuario")));
        var storage := s.storage["authToken" := token]["userId" := PayloadField(decoded, true)]
          ["rol" := Display(a.rol)]["nombre" := nombre]["apellido" := Display(Or(a.apellido, Str("")))]
          ["email" := PayloadField(decoded, false)];
        Step(Session(storage, true, nombre), Some(a))
  }

  /** The form fields `register` sends and partly stores. */
  datatype Registration = Registration(
    dni: string, nombre: string, apellido: string, email: string, telefono: string, password: string)

  /** The keys a registration with a token writes. */
  const RegisterKeys: set<string> := {"authToken", "userId", "rol", "nombre", "email", "dni", "telefono"}

  /** `register`: like login, but the name falls back to the form's and errors leave the flag alone. */
  function Register(s: Session, form: Registration, outcome: HttpOutcome, decode: string -> Option<Payload>): (st: Step)
    ensures st.result.None? ==> st.session == s
    ensures st.result.Some? ==> st.session.authenticated && GetToken(st.session).Some? && GetToken(st.session).value != ""
    ensures st.result.Some? ==> Get(st.session.storage, "dni") == Some(form.dni) && Get(st.session.storage, "telefono") == Some(form.telefono)
  {
    match outcome
    case HttpFailed => Step(s, None)
    case Answered(a) =>
      if !Truthy(a.token) then Step(s, None)
      else
        TruthyDisplaysNonEmpty(a.token);
        var token := Display(a.token);
        var decoded := decode(token);
        var nombre := Display(Or(a.nombre, Str(form.nombre)));
        var storage := s.storage["authToken" := token]["userId" := PayloadField(decoded, true)]
          ["rol" := Display(a.rol)]["nombre" := nombre]["email" := PayloadField(decoded, false)]
          ["dni" := form.dni]["telefono" := form.telefono];
        Step(Session(storage, true, nombre), Some(a))
  }

  /** The keys logout removes. */
  const LogoutKeys: set<string> := {"authToken", "rol", "nombre"}

  /** `logout`: forget token, role and name; the flag and the shown name are cleared. */
  function Logout(s: Session): (r: Session)
    ensures !IsLoggedIn(r) && !IsAdmin(r) && GetToken(r).None?
    ensures forall k :: k in s.storage && k !in LogoutKeys ==> k in r.storage && r.storage[k] == s.storage[k]
  {
    Session(s.storage - LogoutKeys, false, "")
  }

  predicate IsLoggedIn(s: Session) {
    s.authenticated || Stored(s.storage, "authToken")
  }

  predicate IsAdmin(s: Session) {
    Get(s.storage, "rol") == Some("admin")
  }

  /** `getUserId`: null when nothing (or the empty string) is stored, else `parseInt` of it. */
  function GetUserId(s: Session): (r: Option<Number>)
    ensures forall n: int :: Get(s.storage, "userId") == Some(IntToString(n)) ==> r == Some(Num(n))
    ensures Get(s.storage, "userId") == None ==> r == None
  {
    assert forall n: int :: ParseInt(IntToString(n)) == Num(n) by {
      forall n: int ensures ParseInt(IntToString(n)) == Num(n) {
        ParseIntOfIntToString(n);
      }
    }
    if Stored(s.storage, "userId") then Some(ParseInt(s.storage["userId"])) else None
  }

  function GetNombreUsuario(s: Session): string {
    if Stored(s.storage, "nombre") then s.storage["nombre"] else "Usuario"
  }

  function GetToken(s: Session): Option<string> {
    Get(s.storage, "authToken")
  }

  // ---------------------------------------------------------------------------
  // Properties

  /** On construction the session is authenticated exactly when a non-empty name is stored. */
  lemma ConstructRestores(storage: Storage)
    ensures Construct(storage).authenticated <==> "nombre" in storage && storage["nombre"] != ""
    ensures Construct(storage).storage == storage
    ensures Construct(storage).authenticated ==> Construct(storage).shownName == storage["nombre"]
    ensures IsLoggedIn(Construct(storage)) <==> Stored(storage, "nombre") || Stored(storage, "authToken")
  {
  }

  /**
   * A login answer with a token writes exactly the six session keys and sets the flag;
   * every other key keeps its value.
   */
  lemma LoginStores(s: Session, a: AuthAnswer, decode: string -> Option<Payload>)
    requires Truthy(a.token)
    ensures var st := Login(s, Answered(a), decode);
      var m := st.session.storage;
      var token := Display(a.token);
      && st.result == Some(a)
      && st.session.authenticated
      && m.Keys == s.storage.Keys + LoginKeys
      && m["authToken"] == token
      && m["userId"] == PayloadField(decode(token), true)
      && m["rol"] == Display(a.rol)
      && m["nombre"] == (if Truthy(a.nombre) then Display(a.nombre) else "Usuario")
      && m["apellido"] == (if Truthy(a.apellido) then Display(a.apellido) else "")
      && m["email"] == PayloadField(decode(token), false)
      && st.session.shownName == m["nombre"]
      && (forall k :: k in s.storage && k !in LoginKeys ==> m[k] == s.storage[k])
  {
  }

  /** An answer without a token changes nothing and yields null. */
  lemma LoginWithoutToken(s: Session, a: AuthAnswer, decode: string -> Option<Payload>)
    requires !Truthy(a.token)
    ensures Login(s, Answered(a), decode) == Step(s, None)
  {
  }

  /** A failed request clears the flag, keeps the storage and yields null. */
  lemma LoginFailureClearsFlag(s: Session, decode: string -> Option<Payload>)
    ensures var st := Login(s, HttpFailed, decode);
      && st.result.None? && !st.session.authenticated
      && st.session.storage == s.storage && st.session.shownName == s.shownName
  {
  }

  /**
   * After a login with a token the user is logged in, is an administrator exactly when the
   * answer's role reads `admin`, and the shown name is the answer's name or `Usuario`.
   */
  lemma LoginThenQueries(s: Session, a: AuthAnswer, decode: string -> Option<Payload>)
    requires Truthy(a.token)
    ensures var t := Login(s, Answered(a), decode).session;
      && IsLoggedIn(t)
      && (IsAdmin(t) <==> Display(a.rol) == "admin")
      && GetToken(t) == Some(Display(a.token))
      && GetNombreUsuario(t) == (if Truthy(a.nombre) then Display(a.nombre) else "Usuario")
  {
    if Truthy(a.nombre) {
      TruthyDisplaysNonEmpty(a.nombre);
    }
  }

  /** The stored user id reads back as the token's numeric id; a missing or zero id reads back as null. */
  lemma LoginUserIdRoundTrip(s: Session, a: AuthAnswer, decode: string -> Option<Payload>)
    requires Truthy(a.token)
    ensures var t := Login(s, Answered(a), decode).session;
      var decoded := decode(Display(a.token));
      && (decoded.Some? && decoded.value.id.Int? && decoded.value.id.i != 0 ==>
            GetUserId(t) == Some(Num(decoded.value.id.i)))
      && (decoded.None? || !Truthy(decoded.value.id) ==> GetUserId(t) == None)
  {
    var t := Login(s, Answered(a), decode).session;
    var decoded := decode(Display(a.token));
    var v := if decoded.None? then Undefined else decoded.value.id;
    assert t.storage["userId"] == Display(Or(v, Str("")));
    UserIdReadsBack(t, v);
  }

  /** A user id stored as `String(v || '')` reads back as the integer v, or as null when v is falsy. */
  lemma UserIdReadsBack(t: Session, v: Value)
    requires "userId" in t.storage && t.storage["userId"] == Display(Or(v, Str("")))
    ensures v.Int? && v.i != 0 ==> GetUserId(t) == Some(Num(v.i))
    ensures !Truthy(v) ==> GetUserId(t) == None
  {
    if v.Int? && v.i != 0 {
      ParseIntOfIntToString(v.i);
      TruthyDisplaysNonEmpty(v);
    }
  }

  /** A session stored by login survives a reload: the constructor finds it authenticated. */
  lemma LoginSurvivesReload(s: Session, a: AuthAnswer, decode: string -> Option<Payload>)
    requires Truthy(a.token)
    ensures var t := Login(s, Answered(a), decode).session;
      Construct(t.storage).authenticated && Construct(t.storage).shownName == t.shownName
  {
    var nombre := Or(a.nombre, Str("Usuario"));
    TruthyDisplaysNonEmpty(nombre);
  }

  /** A registration with a token stores the seven keys; the name falls back to the form's. */
  lemma RegisterStores(s: Session, form: Registration, a: AuthAnswer, decode: string -> Option<Payload>)
    requires Truthy(a.token)
    ensures var st := Register(s, form, Answered(a), decode);
      var m := st.session.storage;
      && st.result == Some(a)
      && st.session.authenticated
      && m.Keys == s.storage.Keys + RegisterKeys
      && m["authToken"] == Display(a.token)
      && m["nombre"] == (if Truthy(a.nombre) then Display(a.nombre) else form.nombre)
      && m["dni"] == form.dni && m["telefono"] == form.telefono
      && st.session.shownName == m["nombre"]
      && (forall k :: k in s.storage && k !in RegisterKeys ==> m[k] == s.storage[k])
  {
  }

  /** A failed registration changes nothing, not even the flag (unlike a failed login). */
  lemma RegisterFailureKeepsState(s: Session, form: Registration, decode: string -> Option<Payload>)
    ensures Register(s, form, HttpFailed, decode) == Step(s, None)
  {
  }

  /** Logout removes exactly the token, role and name; every other entry is kept as it was. */
  lemma LogoutRemovesOnlyItsKeys(s: Session)
    ensures Logout(s).storage.Keys == s.storage.Keys - LogoutKeys
    ensures forall k :: k in Logout(s).storage ==> Logout(s).storage[k] == s.storage[k]
  {
  }

  /**
   * After logout nobody is logged in or an administrator and the name shown is `Usuario`,
   * while the user id and the email stay stored.
   */
  lemma LogoutQueries(s: Session)
    ensures var t := Logout(s);
      && !IsLoggedIn(t) && !IsAdmin(t)
      && GetNombreUsuario(t) == "Usuario" && GetToken(t) == None
      && GetUserId(t) == GetUserId(s)
      && Get(t.storage, "email") == Get(s.storage, "email")
  {
    var t := Logout(s);
    assert "authToken" in LogoutKeys && "rol" in LogoutKeys && "nombre" in LogoutKeys;
    assert "userId" !in LogoutKeys && "email" !in LogoutKeys;
  }

  /** Logging out twice is logging out once. */
  lemma LogoutIdempotent(s: Session)
    ensures Logout(Logout(s)) == Logout(s)
  {
  }

  /** After logout the stale user id of the last login is still returned. */
  lemma UserIdOutlivesLogout(s: Session, a: AuthAnswer, decode: string -> Option<Payload>)
    requires Truthy(a.token)
    ensures var t := Login(s, Answered(a), decode).session;
      GetUserId(Logout(t)) == GetUserId(t)
  {
  }
}

=== FILE: text.dfy ===
/**
 * The string primitives of JavaScript that the modelled code relies on:
 * `trim`, `toUpperCase`, `startsWith`, `includes`, `split` on one character,
 * `String(n)` for integers and `parseInt`.
 */
module Text {

  /** ECMAScript white space and line terminators: what `trim` and `parseInt` skip. */
  predicate IsSpace(c: char) {
    var n := c as int;
    || (0x09 <= n <= 0x0D) || n == 0x20 || n == 0xA0 || n == 0x1680
    || (0x2000 <= n <= 0x200A) || n == 0x2028 || n == 0x2029
    || n == 0x202F || n == 0x205F || n == 0x3000 || n == 0xFEFF
  }

  /** Drops leading white space: the result is the suffix of `s` after its white-space prefix. */
  function TrimStart(s: string): (r: string)
    ensures |r| <= |s| && r == s[|s| - |r|..]
    ensures forall i :: 0 <= i < |s| - |r| ==> IsSpace(s[i])
    ensures |r| > 0 ==> !IsSpace(r[0])
  {
    if |s| > 0 && IsSpace(s[0]) then TrimStart(s[1..]) else s
  }

  /** Drops trailing white space: the result is the prefix of `s` before its white-space suffix. */
  function TrimEnd(s: string): (r: string)
    ensures |r| <= |s| && r == s[..|r|]
    ensures forall i :: |r| <= i < |s| ==> IsSpace(s[i])
    ensures |r| > 0 ==> !IsSpace(r[|r| - 1])
  {
    if |s| > 0 && IsSpace(s[|s| - 1]) then TrimEnd(s[..|s| - 1]) else s
  }

  /** `String.prototype.trim`. */
  function Trim(s: string): string {
    TrimEnd(TrimStart(s))
  }

  /** After a white-space prefix of length k that ends at a non-space character, TrimStart keeps the rest. */
  lemma TrimStartAt(u: string, k: nat)
    requires k < |u| && !IsSpace(u[k])
    requires forall i :: 0 <= i < k ==> IsSpace(u[i])
    ensures TrimStart(u) == u[k..]
  {
    var t := TrimStart(u);
    var d := |u| - |t|;
    assert d <= k;
    assert d >= k;
  }

  /** TrimEnd keeps a prefix that ends at a non-space character. */
  lemma TrimEndKeepsPrefix(t: string, n: nat)
    requires 0 < n <= |t| && !IsSpace(t[n - 1])
    ensures n <= |TrimEnd(t)| && TrimEnd(t)[..n] == t[..n]
  {
  }

  /** A text that opens with white space and then `w` trims to something starting with `w`. */
  lemma TrimmedStartsWith(u: string, k: nat, w: string)
    requires 0 < |w| && k + |w| <= |u|
    requires forall i :: 0 <= i < k ==> IsSpace(u[i])
    requires !IsSpace(w[0]) && !IsSpace(w[|w| - 1])
    requires u[k..k + |w|] == w
    ensures StartsWith(Trim(u), w)
  {
    assert u[k] == w[0];
    TrimStartAt(u, k);
    var t := u[k..];
    assert t[..|w|] == w;
    TrimEndKeepsPrefix(t, |w|);
  }

  /** A non-empty string with no white space at either end. */
  predicate Trimmed(w: string) {
    |w| > 0 && !IsSpace(w[0]) && !IsSpace(w[|w| - 1])
  }

  /** Trim keeps such a string, and removes one leading space put in front of it. */
  lemma TrimPadded(w: string)
    requires Trimmed(w)
    ensures Trim(w) == w
    ensures Trim(" " + w) == w
  {
    assert (" " + w)[1..] == w;
  }

  /** Trim removes one trailing space after a trimmed string. */
  lemma TrimTrailingSpace(w: string)
    requires Trimmed(w)
    ensures Trim(w + " ") == w
  {
    TrimStartAt(w + " ", 0);
    assert (w + " ")[0..] == w + " ";
    assert (w + " ")[..|w|] == w;
  }

  /** `toUpperCase` on the ASCII letters; every other character is kept. */
  function UpperChar(c: char): char {
    if 'a' <= c <= 'z' then (c as int - 32) as char else c
  }

  /** `String.prototype.toUpperCase`, restricted to ASCII case mapping. */
  function ToUpper(s: string): string {
    seq(|s|, i requires 0 <= i < |s| => UpperChar(s[i]))
  }

  /** `s.startsWith(p)`. */
  predicate StartsWith(s: string, p: string) {
    |p| <= |s| && s[..|p|] == p
  }

  /** `s.includes(p)`: `p` occurs in `s` at some position. */
  predicate Contains(s: string, p: string)
    decreases |s|
  {
    StartsWith(s, p) || (|s| > 0 && Contains(s[1..], p))
  }

  /** A string that lacks some character of `p` cannot contain `p`. */
  lemma {:induction false} NotContainsMissingChar(s: string, p: string, c: char)
    requires c in p && c !in s
    ensures !Contains(s, p)
    decreases |s|
  {
    if |s| > 0 {
      assert c !in s[1..];
      NotContainsMissingChar(s[1..], p, c);
    }
  }

  /** `s.split(sep)` for a one-character separator: the pieces between separators, never empty. */
  function Split(s: string, sep: char): (parts: seq<string>)
    ensures |parts| >= 1
    ensures forall i :: 0 <= i < |parts| ==> sep !in parts[i]
  {
    if |s| == 0 then [""]
    else
      var rest := Split(s[1..], sep);
      if s[0] == sep then [""] + rest
      else [[s[0]] + rest[0]] + rest[1..]
  }

  /** `parts.join(sep)`: the inverse of Split. */
  function Join(parts: seq<string>, sep: char): string
    requires |parts| >= 1
  {
    if |parts| == 1 then parts[0] else parts[0] + [sep] + Join(parts[1..], sep)
  }

  /** Splitting and joining again gives back the original string. */
  lemma {:induction false} JoinSplit(s: string, sep: char)
    ensures Join(Split(s, sep), sep) == s
  {
    if |s| > 0 {
      var rest := Split(s[1..], sep);
      JoinSplit(s[1..], sep);
      if s[0] == sep {
        assert Split(s, sep) == [""] + rest;
        assert Join([""] + rest, sep) == "" + [sep] + Join(rest, sep);
      } else {
        var parts := Split(s, sep);
        assert parts == [[s[0]] + rest[0]] + rest[1..];
        if |rest| == 1 {
          assert Join(parts, sep) == [s[0]] + rest[0];
        } else {
          assert Join(rest, sep) == rest[0] + [sep] + Join(rest[1..], sep);
          assert parts[1..] == rest[1..];
          assert Join(parts, sep) == [s[0]] + rest[0] + [sep] + Join(rest[1..], sep);
        }
        assert [s[0]] + s[1..] == s;
      }
    }
  }

  /** A string without the separator splits into itself alone. */
  lemma {:induction false} SplitWithoutSeparator(s: string, sep: char)
    requires sep !in s
    ensures Split(s, sep) == [s]
  {
    if |s| > 0 {
      assert sep !in s[1..];
      SplitWithoutSeparator(s[1..], sep);
      assert [s[0]] + s[1..] == s;
    }
  }

  /** A separator-free piece followed by the separator splits off as the first part. */
  lemma {:induction false} SplitCons(a: string, b: string, sep: char)
    requires sep !in a
    ensures Split(a + [sep] + b, sep) == [a] + Split(b, sep)
  {
    var s := a + [sep] + b;
    if |a| == 0 {
      assert s == [sep] + b;
      assert s[1..] == b;
    } else {
      assert s[0] == a[0] && s[1..] == a[1..] + [sep] + b;
      assert sep !in a[1..];
      SplitCons(a[1..], b, sep);
      assert [a[0]] + a[1..] == a;
    }
  }

  /** A separator-free piece after the last separator splits off as the last part. */
  lemma {:induction false} SplitSnoc(a: string, b: string, sep: char)
    requires sep !in b
    ensures Split(a + [sep] + b, sep) == Split(a, sep) + [b]
  {
    var s := a + [sep] + b;
    if |a| == 0 {
      assert s == [sep] + b;
      assert s[1..] == b;
      SplitWithoutSeparator(b, sep);
    } else {
      assert s[0] == a[0] && s[1..] == a[1..] + [sep] + b;
      SplitSnoc(a[1..], b, sep);
      var rest := Split(a[1..], sep);
      assert (rest + [b])[1..] == rest[1..] + [b];
    }
  }

  /** Two separator-free pieces joined by one separator split back into exactly those two. */
  lemma SplitTwo(a: string, b: string, sep: char)
    requires sep !in a && sep !in b
    ensures Split(a + [sep] + b, sep) == [a, b]
  {
    SplitCons(a, b, sep);
    SplitWithoutSeparator(b, sep);
  }

  /** Joining separator-free pieces and splitting again gives back the pieces. */
  lemma {:induction false} SplitJoin(parts: seq<string>, sep: char)
    requires |parts| >= 1
    requires forall i :: 0 <= i < |parts| ==> sep !in parts[i]
    ensures Split(Join(parts, sep), sep) == parts
  {
    if |parts| == 1 {
      SplitWithoutSeparator(parts[0], sep);
    } else {
      SplitJoin(parts[1..], sep);
      SplitCons(parts[0], Join(parts[1..], sep), sep);
      assert [parts[0]] + parts[1..] == parts;
    }
  }

  predicate IsDecDigit(c: char) {
    '0' <= c <= '9'
  }

  predicate IsHexDigit(c: char) {
    IsDecDigit(c) || ('a' <= c <= 'f') || ('A' <= c <= 'F')
  }

  function DigitValue(c: char): nat
    requires IsHexDigit(c)
  {
    if IsDecDigit(c) then c as int - '0' as int
    else if 'a' <= c <= 'f' then c as int - 'a' as int + 10
    else c as int - 'A' as int + 10
  }

  function DigitChar(d: nat): char
    requires d < 10
  {
    ('0' as int + d) as char
  }

  /** The decimal text of a natural number, most significant digit first, no leading zeros. */
  function NatToString(n: nat): (r: string)
    ensures |r| >= 1
    ensures forall i :: 0 <= i < |r| ==> IsDecDigit(r[i])
  {
    if n < 10 then [DigitChar(n)] else NatToString(n / 10) + [DigitChar(n % 10)]
  }

  /** `String(n)` for an integer. */
  function IntToString(n: int): string {
    if n < 0 then "-" + NatToString(-n) else NatToString(n)
  }

  /** The value of a digit string in base `radix`. */
  function DigitsValue(ds: string, radix: nat): nat
    requires forall i :: 0 <= i < |ds| ==> IsHexDigit(ds[i])
  {
    if |ds| == 0 then 0
    else DigitsValue(ds[..|ds| - 1], radix) * radix + DigitValue(ds[|ds| - 1])
  }

  /** The longest prefix of `s` made of digits of the given kind. */
  function DigitPrefix(s: string, hex: bool): (r: string)
    ensures |r| <= |s| && r == s[..|r|]
    ensures forall i :: 0 <= i < |r| ==> (if hex then IsHexDigit(r[i]) else IsDecDigit(r[i]))
    ensures |r| < |s| ==> !(if hex then IsHexDigit(s[|r|]) else IsDecDigit(s[|r|]))
  {
    if |s| > 0 && (if hex then IsHexDigit(s[0]) else IsDecDigit(s[0]))
    then [s[0]] + DigitPrefix(s[1..], hex)
    else []
  }

  /** A JavaScript number as `parseInt` can produce it: an integer or NaN. */
  datatype Number = Num(value: int) | NaN

  /**
   * `parseInt(s)` with no radix: skip leading white space, an optional sign, then a
   * `0x`/`0X` prefix selects base 16; the longest digit prefix is read, and no digits is NaN.
   */
  function ParseInt(s: string): Number {
    var t := TrimStart(s);
    var negative := |t| > 0 && t[0] == '-';
    var u := if |t| > 0 && (t[0] == '-' || t[0] == '+') then t[1..] else t;
    var hex := |u| >= 2 && u[0] == '0' && (u[1] == 'x' || u[1] == 'X');
    var digits := if hex then DigitPrefix(u[2..], true) else DigitPrefix(u, false);
    if |digits| == 0 then NaN
    else
      var magnitude: int := DigitsValue(digits, if hex then 16 else 10);
      Num(if negative then -magnitude else magnitude)
  }

  lemma {:induction false} NatToStringValue(n: nat)
    ensures DigitsValue(NatToString(n), 10) == n
  {
    if n >= 10 {
      var s := NatToString(n);
      NatToStringValue(n / 10);
      assert s[..|s| - 1] == NatToString(n / 10);
    }
  }

  /** Only zero is written with a leading `0`. */
  lemma {:induction false} NatToStringLeadingDigit(n: nat)
    requires n >= 1
    ensures NatToString(n)[0] != '0'
  {
    if n >= 10 {
      NatToStringLeadingDigit(n / 10);
    }
  }

  lemma {:induction false} DigitPrefixOfDigits(s: string)
    requires forall i :: 0 <= i < |s| ==> IsDecDigit(s[i])
    ensures DigitPrefix(s, false) == s
  {
    if |s| > 0 {
      DigitPrefixOfDigits(s[1..]);
      assert [s[0]] + s[1..] == s;
    }
  }

  /** `parseInt(String(n)) === n` for every integer n. */
  lemma ParseIntOfIntToString(n: int)
    ensures ParseInt(IntToString(n)) == Num(n)
  {
    var m: nat := if n < 0 then -n else n;
    var u := NatToString(m);
    var s := IntToString(n);
    assert s == (if n < 0 then "-" + u else u);
    assert !IsSpace(s[0]);
    assert TrimStart(s) == s;
    if n < 0 {
      assert s[1..] == u;
    }
    if m >= 1 {
      NatToStringLeadingDigit(m);
    }
    DigitPrefixOfDigits(u);
    NatToStringValue(m);
  }
}

=== FILE: values.dfy ===
/**
 * JavaScript values as they travel through the backend: request-body fields,
 * positional SQL parameters and the columns of table rows.
 */
module Values {
  import opened Text

  datatype Value = Undefined | Null | Bool(b: bool) | Int(i: int) | Str(s: string)

  /** A table row or a plain object: column name to value. */
  type Row = map<string, Value>

  /** JavaScript truthiness: `undefined`, `null`, `false`, `0` and `''` are falsy. */
  predicate Truthy(v: Value) {
    match v
    case Undefined => false
    case Null => false
    case Bool(b) => b
    case Int(i) => i != 0
    case Str(s) => s != ""
  }

  /**
   * `a || b`: truthy exactly when either operand is, and always one of the two, the
   * first whenever it is truthy.
   */
  function Or(a: Value, b: Value): (r: Value)
    ensures Truthy(r) <==> Truthy(a) || Truthy(b)
    ensures r == a || r == b
    ensures Truthy(a) ==> r == a
    ensures !Truthy(a) ==> r == b
  {
    if Truthy(a) then a else b
  }

  /** `row.key`: a missing property reads as `undefined`. */
  function Field(row: Row, key: string): Value {
    if key in row then row[key] else Undefined
  }

  /** `String(v)`, as a template literal renders a value. */
  function Display(v: Value): string {
    match v
    case Undefined => "undefined"
    case Null => "null"
    case Bool(b) => if b then "true" else "false"
    case Int(i) => IntToString(i)
    case Str(s) => s
  }

  /** A truthy value never renders as the empty string. */
  lemma TruthyDisplaysNonEmpty(v: Value)
    requires Truthy(v)
    ensures Display(v) != ""
  {
    if v.Int? {
      if v.i < 0 {
        assert |IntToString(v.i)| >= 1;
      }
    }
  }
}

=== FILE: wrappers.dfy ===
/** Optional values and success/failure results shared by the whole model. */
module Wrappers {

  /** A value that may be absent (JavaScript `undefined`/`null` where the source tests for it). */
  datatype Option<+T> = None | Some(value: T) {

    /** The carried value, or `default` when absent. */
    function GetOr(default: T): T {
      match this
      case Some(v) => v
      case None => default
    }
  }

  /** The result of an operation that can fail with an error of type E. */
  datatype Result<+T, +E> = Ok(value: T) | Err(error: E)
}
